=== FILE: README.md ===
# Line-dot chart: a Dafny model of the chart core

This project models the core of an animated line-and-dot chart visual. The
visual plots one dot per category row (a date, a number or a text label) on a
line. It can replay the series: the line is revealed left to right and each
dot pops up when the sweep reaches it. A counter caption shows the current
row. The model covers these parts:

- **Column resolver** (`Columns`): finds the columns bound to the `Date` and
  `Values` roles in a categorical data view, and projects their values. Date
  strings are turned into Dates.
- **View-model builder** (`ViewModel`):
  - the converter's rejection rules;
  - the counter column and its date-time test;
  - the per-row pass, which gives each row its position, defaulted value,
    normalized dot size, running sum, highlight, opacity and counter;
  - the tooltip items.
- **Axis arithmetic** (`Axes`): effective plot size, the x domain (the row
  positions, or a padded continuous range), the y domain with its widening
  rules, the forced tick count and the label width.
- **Tick-label callbacks** (`TickFormat`): the category-axis and value-axis
  formatting callbacks.
- **Animation director** (`Animation`):
  - what exists in each playback state (Disabled, Stopped, Playing);
  - the play-button opacities;
  - the clip-rectangle sweep;
  - the per-point delays of the two dot phases;
  - the counter caption and the dot radius.
- **Selection dimming** (`Selection`): the fill-opacity rule and how its two
  call sites wire its arguments.
- **Settings validation** (`ChartSettings`): the counter title default and
  the ordered clamping of dot sizes, line thickness and duration.

`Js` models the JavaScript values the core works with. These are primitive
cells, truthiness, the `Date` constructor's range, and IEEE division by zero.
`Extents` models d3's `extent`. Formatters, the date parser and JavaScript's
number-to-string conversion are opaque function parameters.

Two places make room for the counter above the data:

- the converter widens the running total (`src/visual.ts:443`) by 10% of its
  distance above the minimum, although the comment above that line says 25%;
- `calculateAxes` widens the y-axis maximum (`src/visual.ts:575`).

The converter keeps the plain value range. `ViewModel.Convert` models the
first widening and `Axes.YDomain` the second.

## Model

| member | source | states |
|---|---|---|
| Js.NumberToDate | src/visual.ts:157 | `new Date(n)` of a number is a valid Date exactly when `n` is within ±8.64e15 ms; its time is `n` truncated toward zero, and an integral `n` is kept exactly |
| Extents.Extent | src/visual.ts:472-474 | the extent is undefined exactly for an empty sequence; otherwise both ends are elements, `lo <= hi`, and every element lies between them |
| Extents.ExtentIsTightest | src/visual.ts:530-535 | any interval covering a non-empty sequence contains its extent |
| Columns.WithRole | src/columns.ts:84 | filtering by role keeps exactly the columns that carry the role |
| Columns.WithRoleHeadIsFirst | src/columns.ts:84 | the head of the filtered list is the first column carrying the role |
| Columns.Resolve | src/columns.ts:83-97 | a role resolves to the first category column carrying it exactly when one exists; to the whole measure group exactly when no category column carries it and the group does; failing both, to the non-empty list of the measure columns carrying it, in their order; it is unresolved exactly when nothing carries it |
| Columns.GetCategoricalColumns | src/columns.ts:76-99 | no result exactly when the data view has no categorical part; otherwise both roles are resolved |
| Columns.Coerce | src/columns.ts:53-62 | a string the date parser accepts becomes that Date; any other cell, including a string the parser rejects, passes through unchanged |
| Columns.CoerceAll | src/columns.ts:53-62 | the coerced column has the same length, and each cell is coerced in place |
| Columns.SeriesNames | src/columns.ts:67-74 | one series name per measure column, in order |
| Columns.Project | src/columns.ts:49-64 | the projected values are missing exactly when no category or measure column carries the role and neither does the group; when a column carries it, they are the coerced values of the first such column; when only the group carries it, they are the series names of the measure columns |
| Columns.GetCategoricalValues | src/columns.ts:41-65 | no result exactly when the data view has no categorical part; otherwise both roles are projected |
| Columns.CoerceAllIdempotent | src/columns.ts:53-62 | coercing already coerced values changes nothing |
| Columns.ResolvedNeverEmpty | src/columns.ts:90-95 | an empty filtered list is never returned, and a role nothing carries is unresolved |
| Columns.DateProjectionIsDateColumn | src/columns.ts:49-64 | when the Date role resolves to a category column, the projected dates are that column's coerced values |
| ChartSettings.GetValidValue | src/settings.ts:76-84 | a value below the minimum gives the minimum, a value not below the minimum but above the maximum gives the maximum, a value inside the bounds is kept, and the result is always one of the value, the minimum and the maximum, within the bounds when they are ordered |
| ChartSettings.ParseSettings | src/settings.ts:39-74 | a missing or empty title takes the localized default; afterwards `0 <= dotSizeMin <= dotSizeMax <= 50`, thickness is in [0, 50] and duration in [0, 1000]; the dot minimum is clamped into [0, 50] and the dot maximum against the clamped minimum; a thickness or duration below its range becomes the lower bound, above it the upper bound, and inside it is kept; valid sizes and all unvalidated fields are unchanged |
| ChartSettings.CounterTitleText | src/settings.ts:120-124 | the title when the counter is shown, the empty string otherwise |
| ChartSettings.GetValidValueIdempotent | src/settings.ts:76-84 | clamping twice equals clamping once for ordered bounds |
| ChartSettings.ParseSettingsIdempotent | src/settings.ts:39-74 | validating already validated settings changes no clamped field and keeps the title |
| ChartSettings.OutOfRangeDotSizes | test/visualTest.ts:261-276 | dot sizes -6 and 678 are clamped to 0 and 50 |
| ChartSettings.DotMaxFollowsClampedMin | src/settings.ts:55-59 | a maximum dot size below a valid minimum is raised to the minimum, because the maximum is clamped against the already clamped minimum |
| ViewModel.SeriesExtent | src/visual.ts:472-474 | for Values cells that are numbers or empty, the extent the source computes covers the numeric cells, skipping the empty ones, and both its ends are numeric cells; it is undefined exactly when no cell is a number |
| ViewModel.RowExtent | src/visual.ts:472-481 | corrected extent: it covers the defaulted value of every row, both ends are attained by some row, and it is undefined only when there are no rows |
| ViewModel.Normalize | src/visual.ts:502-504 | a dot is 0 for an undefined or zero range; otherwise dot × range = value − min, and the dot lies in [0, 1] for a value inside the range |
| ViewModel.CalculateLineDotChartValues | src/visual.ts:471-515 | fails exactly when the category axis is date-time and some category is not a valid Date (for an invalid Date see Left out); otherwise it builds one point and one position per row, in order, and each point has the row's category, its position (epoch ms, raw number or row index), its value (defaulting to 0), a running sum equal to the total of the rows so far, its dot, `selected` false, the row's highlight, the opacity `percentile / 100` and the row's counter value; the final sum is the series total |
| ViewModel.DateColumnOf | src/visual.ts:399-402 | the Date column is usable exactly when it resolves to a category column with values |
| ViewModel.FirstValuesColumnOf | src/visual.ts:403-406 | the values column is the first column of the resolved group or list, and is usable only when it has values |
| ViewModel.CounterValues | src/visual.ts:409-415 | the counter is absent exactly when no measure column has the Counter role; otherwise it holds the values of the last measure column that has it |
| ViewModel.CounterIsDateTime | src/visual.ts:422-431 | with a non-empty counter, its first cell decides: a Date counts as date-time, a string counts exactly when the date parser accepts it, `null` is a type error, and anything else does not count; without counter values the previous flag stays |
| ViewModel.ConverterRows | src/visual.ts:409-440 | the per-row inputs exist exactly when the data view is not rejected; their categories are the coerced cells of the resolved Date column, their values are the Values projection (the first column carrying the role, coerced, or the series names when only the group carries it), their value type is that column's, their highlights are the first values column's, and their counter is the last Counter column's values |
| ViewModel.Convert | src/visual.ts:391-469 | no data exactly when the data view has no usable Date column or values column; otherwise both projections exist, and the conversion fails exactly when the counter test throws on a `null` first cell or the category axis is date-time and some category is not a Date, and is built in every other case; a built view model is well formed and has these properties: its positions are the coerced Date column in order, it is ordinal exactly for a text Date column, the column names come from the two columns, it has highlights exactly when the values column carries them, and its counter date-time flag is the one the counter test gives; every point is the per-row pass's point for its row of the projected Date and Values cells (position, defaulted value, running sum, dot, highlight, opacity, counter), the total is widened by 10%, and the value range is the corrected `RowExtent`, not d3's extent at src/visual.ts:472 (see Findings) |
| ViewModel.Assemble | src/visual.ts:440-468 | fails exactly when the category axis is date-time and some category is not a Date; a built view model is well formed, has one position per row carrying that row's category, is ordinal exactly for a text axis, keeps the axis value type, has highlights exactly when the values column does, and has its total widened by 10% of the total's distance above the minimum; each point is the one the per-row pass builds for its row, and the value range is the corrected `RowExtent` of the plotted values, not d3's extent at src/visual.ts:472 (see Findings) |
| ViewModel.RejectionCases | src/visual.ts:398-407 | no Date category column, nothing carrying Values, or a category column carrying Values each lead to no data |
| ViewModel.TooltipDataItems | src/visual.ts:1240-1262 | no point gives no items; a point gives exactly two items under the two column names: the formatted category (or its position when the category is falsy) and the formatted value |
| ViewModel.TooltipShowsRow | src/visual.ts:1240-1262 | the tooltip of the point built for a row shows that row's defaulted value, its category when truthy, and on an ordinal axis the row index for an empty category |
| ViewModel.RunningSumIsPrefixTotal | src/visual.ts:493-505 | each point's running sum is the previous point's sum plus its own value; the first point's sum is its own value and the last point's is the total |
| ViewModel.RowExtentAgreesOnCompleteData | src/visual.ts:472-481 | when every value is present, the corrected extent equals the extent the source computes |
| ViewModel.MissingValueLeavesUnitRange | src/visual.ts:472-504 | for the values 5, missing, 7, the source's extent is [5, 7] and the missing row's dot is -2.5; the corrected extent is [0, 7], and the row's dot is 0 |
| Axes.XDomainOf | src/visual.ts:530-541 | an ordinal x domain lists the row positions in order; otherwise it runs from the smallest position to the largest, plus 5% of the span, and covers every position |
| Axes.YDomain | src/visual.ts:561-576 | the y domain is never degenerate and contains the data range; a non-flat range keeps its minimum and grows by 10% on top; a flat range is widened symmetrically, by 1 on each side for a non-zero integer and by 0.05 otherwise |
| Axes.CalculateAxes | src/visual.ts:526-605 | effective width and height are the inner size minus the legend and axis space, never negative; the forced tick count is the width / 150; the label width is the smaller of 160 and width / 3.2; the y domain comes from the value range |
| Axes.FlatIntegerSeries | src/visual.ts:566-569 | a flat series at 5 gets the y domain [4, 6] |
| Axes.FlatFractionalSeries | src/visual.ts:570-573 | a flat series at 5.2 gets [5.15, 5.25] |
| Axes.FlatZeroSeries | src/visual.ts:566-573 | a flat series at 0 is treated as fractional: [-0.05, 0.05] |
| Axes.OrdinalDomainIsRowIndices | src/visual.ts:539-541 | for an ordinal view model the x domain is 0, 1, …, n-1, one position per point |
| Axes.PointsInsideYDomain | src/visual.ts:561-576 | every plotted value lies inside the y domain, strictly below its top when the series is not flat |
| TickFormat.CategoryAt | src/visual.ts:159-161 | a row's category is found exactly at an integral index inside the rows; any other index is a type error |
| TickFormat.ColumnTick | src/visual.ts:154-164 | a date-time tick is formatted as a Date, a text tick shows the row's category, and a numeric tick is formatted as a number |
| TickFormat.ValueTick | src/visual.ts:166-188 | as the column callback for date-time and text ticks; a numeric tick gives the raw number exactly when formatting leaves its text unchanged, or when the formatted text is numeric and the number has a fractional part; otherwise it gives the formatted text |
| TickFormat.TextTicksAgree | src/visual.ts:154-174 | on a text axis the two callbacks give the same tick |
| TickFormat.UnitTextIsKept | src/visual.ts:177-183 | formatted text that is not a number (a unit or percent sign) is kept, unless it is the number's own text |
| TickFormat.OrdinalTicksShowCategories | src/visual.ts:159-161 | on an ordinal axis, the tick at row k's position shows row k's category |
| Animation.PlaybackButtons | src/visual.ts:776-901 | the button exists exactly when shown; the circle's opacity attribute is 1 exactly unless Disabled, the play icon's exactly when Stopped and the stop icon's exactly when Playing (the circle's inline opacity style from the formatting pane is not modelled); all opacities are 0 or 1, and the play and stop icons never show together |
| Animation.RectAnimationSettings | src/visual.ts:991-1008 | the sweep starts at the first point with a non-negative width, ends at the lower of the two ends, and covers up to the higher one |
| Animation.RectAnimationExamples | test/visualTest.ts:361-386 | ends 10 and 100 give (10, 10, 90); ends 100 and 10 give (100, 10, 90) |
| Animation.PointTimeOf | src/visual.ts:1018-1020 | each dot phase lasts 300 ms while Playing, 0 otherwise |
| Animation.RenderFrame | src/visual.ts:699-733 | Stopped clears the line, the dots and the counter. Otherwise the line and dots are drawn. The clip sweep and the counter text exist exactly when Playing, and the sweep runs from the first point's position over `duration × 1000` ms. Dots grow through scales 0, 3.4, 1 when Playing and sit at scale 1 when Disabled |
| Animation.PointDelay | src/visual.ts:1212-1228 | no delay for the first point, a missing point or unless Playing; otherwise the delay is finite exactly when the first and last positions differ, and then delay × span = duration × 1000 × (position − first position); for a flat span it is NaN exactly for 0/0, +Infinity for a positive and −Infinity for a negative numerator |
| Animation.SettleDelay | src/visual.ts:1160-1164 | the second phase's delay is finite exactly when the first phase's is, and then equals (delay + phase length) / 1000; NaN, +Infinity and −Infinity carry over unchanged |
| Animation.PointDelayBounded | src/visual.ts:1212-1228 | over ascending positions with a non-zero span and a non-negative duration, every delay lies in [0, duration × 1000] |
| Animation.PointDelayMonotone | src/visual.ts:1212-1228 | over ascending positions, a later point never starts before an earlier one |
| Animation.LastPointDelayIsDuration | src/visual.ts:1224-1227 | the last point starts exactly when the clip sweep ends |
| Animation.FlatSpanDelayIsNotFinite | src/visual.ts:1224-1227 | when the first and last positions coincide, every later point's delay is not a finite number |
| Animation.NoDelaysUnlessPlaying | src/visual.ts:1212-1220 | unless Playing, both phases of every point have delay 0 |
| Animation.CounterCaption | src/visual.ts:1136-1149 | a hidden counter gives the empty caption; otherwise the caption is the title and a space, then the counter value (formatted as a Date under a date-time counter), or the 1-based row number when the counter value is falsy |
| Animation.CaptionStartsWithTitleText | src/visual.ts:1136-1138 | a shown caption starts with the validated counter title text |
| Animation.ZeroCounterShowsRowNumber | src/visual.ts:1139-1145 | a counter value of 0 is falsy, so the caption shows the row number |
| Animation.DateCounterFormatsItself | src/visual.ts:1140-1142 | a date-time counter holding a Date is formatted as that same Date |
| Animation.DotRadius | src/visual.ts:1063-1066 | dot 0 gives the minimum size and dot 1 the maximum; a dot in [0, 1] gives a radius between them; for distinct sizes, a radius falls outside exactly when the dot does |
| Animation.DotRadiusWithinSettings | src/visual.ts:1063-1066 | every dot of a built view model has a radius between the dot sizes as `ChartSettings.ParseSettings` validates them (src/settings.ts:49-59), so within [0, 50]; src/visual.ts reads the sizes from the formatting-pane model, and the model assumes they passed that validation |
| Animation.MissingValueShrinksDotBelowMinimum | src/visual.ts:1063-1066 | the dot -2.5 of the missing-value example gives radius -81 under the default sizes 4 and 38 |
| Selection.FillOpacity | src/behavior.ts:39-53 | an undimmed dot keeps its opacity; a dimmed dot gets its opacity minus 0.4 but at least 0.1, which is lower than before exactly when the opacity was above 0.1; the result always lies between the smaller and the larger of the opacity and 0.1 |
| Selection.PointOpacity | src/behavior.ts:91-99 | with the call-site wiring, a dot that is neither selected nor highlighted is dimmed while the chart has a selection or highlights; every other dot keeps its opacity |
| Selection.RenderSelection | src/behavior.ts:85-100 | one opacity per dot, in order, each by the wired rule |
| Selection.WiringDimsExactly | src/visual.ts:1054-1061 | the wired dimming condition holds exactly for a dot that is neither selected nor highlighted while the chart has a selection or highlights |
| Selection.OpacityDependsOnOwnFlags | src/behavior.ts:39-45 | two dots that agree on opacity, selection and highlight get the same opacity under the same chart-wide flags |
| Selection.NothingDimsWithoutSelection | src/behavior.ts:85-100 | with no selection and no highlights every dot keeps its opacity |
| Selection.DimmingStaysInRange | src/behavior.ts:46-50 | an opacity in [0.1, 1] stays in [0.1, 1] and never rises |
| Selection.DimmingExamples | src/behavior.ts:46-50 | a dot at full opacity dims to 0.6; a dot at 0.3 dims to the floor 0.1 |
| Selection.FreshModelDimsUnhighlighted | src/visual.ts:498-509 | in a freshly built view model nothing is selected, so exactly the unhighlighted dots are dimmed while there is a selection or highlights |

## Left out

- Rendering is left out: the DOM, SVG, d3 selections, transitions, easing, timers and text measurement. The model keeps the numbers and decisions handed to them.
- The axis helper's tick generation and scales are left out. `Axes.CalculateAxes` stops at the domains and sizes it passes in.
- The layout's margins are not modelled. The inner viewport is an input of `Axes.CalculateAxes`.
- The value formatters, the date parser and JavaScript's number-to-string conversion are opaque parameters. Their output is not modelled.
- The date formatter's format-string choice and locale are not modelled, for the same reason.
- The host is left out: the selection service and its click handling, persisting the stopped flag, the high-contrast palette, localization and the tooltip service.
- The formatting-pane model beyond the fields the validation pass touches is left out.
- Host objects whose columns have no `source` are not modelled. The converter calls the resolver (src/visual.ts:396), which dereferences `source.roles` on every column, and reads `source.roles` again in its counter loop (src/visual.ts:412), so such a column makes the converter itself throw.
- Values cells that are neither numbers nor empty (a stray string, boolean or Date) count as 0 in the per-row pass, and the extent ignores them. d3's `extent` would compare them too, and `|| 0` would keep a truthy string; the chart cannot plot either.
- NaN and infinite data values are not modelled. Data cells are finite reals.
- On a numeric category axis, a category cell that is not a number gets position 0.
- ViewModel.CalculateLineDotChartValues: an invalid Date category on a date-time axis fails the build, although `getTime` gives NaN there (src/visual.ts:485) and the source builds the view model; positions are reals, and NaN positions are not modelled.
- Animation.PlaybackButtons: only the opacity attributes are modelled; the inline `opacity` style set on the circle (src/visual.ts:809) takes precedence in the browser and is left out with the rest of the rendering.
- A selection id is the row index (`identity`). The host's id builder is left out.
- The axis helper's value-type detection is reduced to the three kinds date-time, text and numeric. The axis is ordinal exactly for text.
- The counter's `getMonth` test is modelled as "the cell is a Date". An invalid Date also has `getMonth`, so it counts as date-time.
- Settings persistence and the `isAnimated` reset in `clear()` when there is nothing to draw (src/visual.ts:286-289) are left out: the first is a host call, and the second belongs to the update cycle around the converter.

## Findings

| source | as written | input that shows it | evidently intended | confidence | as-written member | corrected member |
|---|---|---|---|---|---|---|
| src/visual.ts:472-504 | the value range comes from d3's `extent`, which skips missing cells, but each row plots a missing value as 0, so a missing cell is plotted as 0 outside the range | values 5, missing, 7: range [5, 7], middle dot (0 − 5) / 2 = −2.5, radius 4 + (−2.5) × 34 = −81 under the default sizes | the range covers every plotted value, so every dot lies in [0, 1] and every radius lies between the configured sizes | medium, not executed | ViewModel.SeriesExtent (shown by ViewModel.MissingValueLeavesUnitRange) | ViewModel.RowExtent (used by ViewModel.Convert; see ViewModel.RowExtentAgreesOnCompleteData, Animation.DotRadiusWithinSettings) |

=== FILE: animation.dfy ===
/** The animation director: which parts of the chart exist in each playback
    state, the clip rectangle that reveals the line, the per-point delays of
    the two-phase dot transition, the counter caption and the dot radius.
    Timers, easing and the DOM are not modelled; only the numbers and
    decisions handed to them are. */
module Animation {
  import opened Js
  import opened ViewModel
  import opened ChartSettings

  /** The three playback states the two settings flags select. */
  datatype AnimationState = Disabled | Stopped | Playing

  function StateOf(isAnimated: bool, isStopped: bool): AnimationState {
    if !isAnimated then Disabled else if isStopped then Stopped else Playing
  }

  /** Duration of each of the two dot transition phases while playing, in ms. */
  const PointTime: real := 300.0
  const MillisecondsInOneSecond: real := 1000.0
  /** Scale of a dot before it appears, at the end of the first phase, and
      at rest. */
  const PointHiddenScale: real := 0.0
  const PointPeakScale: real := 3.4
  const PointRestScale: real := 1.0

  /** The opacities of the play-button parts, or no button at all. */
  datatype Buttons = NoButton | Button(circle: real, play: real, stop: real)

  /** `drawPlaybackButtons`: the button exists when its `show` setting is on;
      the circle's opacity attribute is 1 when animation is on, the play
      icon's when it is on and stopped, the stop icon's when it is on and
      running. */
  function PlaybackButtons(show: bool, isAnimated: bool, isStopped: bool): (b: Buttons)
    ensures b.NoButton? <==> !show
    ensures b.Button? ==> (b.circle == 1.0 <==> StateOf(isAnimated, isStopped) != Disabled)
    ensures b.Button? ==> (b.play == 1.0 <==> StateOf(isAnimated, isStopped) == Stopped)
    ensures b.Button? ==> (b.stop == 1.0 <==> StateOf(isAnimated, isStopped) == Playing)
    ensures b.Button? ==> b.circle in {0.0, 1.0} && b.play in {0.0, 1.0} && b.stop in {0.0, 1.0}
    ensures b.Button? ==> b.play * b.stop == 0.0
  {
    if !show then NoButton
    else Button(
      if isAnimated then 1.0 else 0.0,
      if isAnimated && isStopped then 1.0 else 0.0,
      if isAnimated && !isStopped then 1.0 else 0.0)
  }

  /** The clip rectangle's sweep: it starts at the first point with no
      width and ends covering the span between the first and last points,
      whichever side the last one is on. */
  datatype LineAnimation = LineAnimation(startX: real, endX: real, endWidth: real)

  /** `getRectAnimationSettings`. */
  function RectAnimationSettings(first: real, second: real): (s: LineAnimation)
    ensures s.startX == first
    ensures s.endWidth >= 0.0
    ensures s.endX <= first && s.endX <= second && (s.endX == first || s.endX == second)
    ensures s.endX + s.endWidth >= first && s.endX + s.endWidth >= second
    ensures s.endX + s.endWidth == first || s.endX + s.endWidth == second
  {
    if second - first < 0.0 then LineAnimation(first, second, first - second)
    else LineAnimation(first, first, second - first)
  }

  /** Lemma: ascending ends 10 and 100 keep the clip anchored at 10 and
      widen it to 90; reversed ends 100 and 10 move it to 10, also 90 wide. */
  lemma RectAnimationExamples()
    ensures RectAnimationSettings(10.0, 100.0) == LineAnimation(10.0, 10.0, 90.0)
    ensures RectAnimationSettings(100.0, 10.0) == LineAnimation(100.0, 10.0, 90.0)
  {
  }

  /** The clip path: swept over `durationMs` while animated, removed
      otherwise. */
  datatype Clip = NoClip | AnimatedClip(startX: real, startWidth: real, sweep: LineAnimation, durationMs: real)

  /** What one draw leaves on screen: nothing but the axes and buttons, or
      the line under its clip and the dots with their transform scales in
      order, the counter text, and the length of each dot phase. */
  datatype Frame =
    | Cleared
    | Drawn(clip: Clip, counterText: bool, dotScales: seq<real>, pointTime: real)

  /** `point_time`: the phase length while playing, 0 otherwise. */
  function PointTimeOf(isAnimated: bool, isStopped: bool): (t: real)
    ensures StateOf(isAnimated, isStopped) == Playing ==> t == PointTime
    ensures StateOf(isAnimated, isStopped) != Playing ==> t == 0.0
  {
    if isAnimated && !isStopped then PointTime else 0.0
  }

  /** `draw`, `drawClipPath` and `handleDotsTransformation` together: a
      stopped animation clears the line, dots and counter and returns early;
      otherwise the line and dots are drawn, and the clip, the counter text
      and the grow-then-settle dot transition exist only when animated.
      `lineLeft`/`lineRight` are the screen positions of the first and last
      points, `duration` the validated duration in seconds. */
  function RenderFrame(isAnimated: bool, isStopped: bool, lineLeft: real, lineRight: real, duration: real): (f: Frame)
    ensures f.Cleared? <==> StateOf(isAnimated, isStopped) == Stopped
    ensures f.Drawn? ==> (f.clip.AnimatedClip? <==> StateOf(isAnimated, isStopped) == Playing)
    ensures f.Drawn? ==> (f.counterText <==> StateOf(isAnimated, isStopped) == Playing)
    ensures f.Drawn? ==> |f.dotScales| > 0 && f.dotScales[|f.dotScales| - 1] == PointRestScale
    ensures StateOf(isAnimated, isStopped) == Disabled ==> f == Drawn(NoClip, false, [PointRestScale], 0.0)
    ensures StateOf(isAnimated, isStopped) == Playing ==> (f.Drawn?
      && f.dotScales == [PointHiddenScale, PointPeakScale, PointRestScale]
      && f.pointTime == PointTime
      && f.clip.startX == lineLeft && f.clip.startWidth == 0.0
      && f.clip.sweep == RectAnimationSettings(lineLeft, lineRight)
      && f.clip.durationMs == duration * MillisecondsInOneSecond)
  {
    if isAnimated && isStopped then Cleared
    else
      var sweep := RectAnimationSettings(lineLeft, lineRight);
      var clip := if isAnimated then AnimatedClip(sweep.startX, 0.0, sweep, duration * MillisecondsInOneSecond) else NoClip;
      var scales := if isAnimated then [PointHiddenScale, PointPeakScale, PointRestScale] else [PointRestScale];
      Drawn(clip, isAnimated, scales, PointTimeOf(isAnimated, isStopped))
  }

  /** `pointDelay`: no delay for the first point, a missing point, an empty
      list or when not playing; otherwise the point's share of the distance
      from the first to the last position, scaled to the duration in ms. A
      zero distance divides by zero. */
  function PointDelay(points: seq<LineDotPoint>, num: int, isAnimated: bool, isStopped: bool, duration: real): (r: Number)
    ensures (|points| == 0 || num < 0 || num >= |points| || num == 0 || StateOf(isAnimated, isStopped) != Playing)
      ==> r == Finite(0.0)
    ensures 0 < num < |points| && StateOf(isAnimated, isStopped) == Playing ==>
      var t0 := points[0].dateValue.value;
      var tl := points[|points| - 1].dateValue.value;
      var t := points[num].dateValue.value;
      && (r.Finite? <==> t0 != tl)
      && (r.Finite? ==> r.v * (tl - t0) == duration * MillisecondsInOneSecond * (t - t0))
      && (r.NaN? <==> t0 == tl && duration * (t - t0) == 0.0)
      && (r.PosInfinity? <==> t0 == tl && duration * (t - t0) > 0.0)
      && (r.NegInfinity? <==> t0 == tl && duration * (t - t0) < 0.0)
  {
    if |points| == 0 || num < 0 || num >= |points| || num == 0 || !isAnimated || isStopped then Finite(0.0)
    else
      var time := points[num].dateValue.value;
      var min := points[0].dateValue.value;
      var max := points[|points| - 1].dateValue.value;
      Divide(duration * MillisecondsInOneSecond * (time - min), max - min)
  }

  /** The second phase's extra delay: the first phase's delay plus its
      length, read as seconds although d3 takes milliseconds. */
  function SettleDelay(delay: Number, pointTime: real): (r: Number)
    ensures r.Finite? <==> delay.Finite?
    ensures r.Finite? ==> r.v * MillisecondsInOneSecond == delay.v + pointTime
    ensures r.NaN? <==> delay.NaN?
    ensures r.PosInfinity? <==> delay.PosInfinity?
    ensures r.NegInfinity? <==> delay.NegInfinity?
  {
    AddThenDivide(delay, pointTime, MillisecondsInOneSecond)
  }

  /** Positions never decrease along the points. */
  ghost predicate Ascending(points: seq<LineDotPoint>) {
    forall j, k :: 0 <= j <= k < |points| ==> points[j].dateValue.value <= points[k].dateValue.value
  }

  /** `q` is the quotient `a / b` written as a product, for non-negative
      `a <= b`. */
  lemma QuotientInUnit(q: real, a: real, b: real, scale: real)
    requires 0.0 <= a <= b && b > 0.0 && scale >= 0.0 && q * b == scale * a
    ensures 0.0 <= q <= scale
  {
    NonNegativeFactor(q, b);
    assert (scale - q) * b == scale * (b - a);
    NonNegativeFactor(scale - q, b);
  }

  /** A product with a positive factor has the sign of the other factor. */
  lemma NonNegativeFactor(x: real, b: real)
    requires b > 0.0
    ensures x * b >= 0.0 ==> x >= 0.0
  {
    if x < 0.0 {
      assert x * b < 0.0;
    }
  }

  /** Lemma: while playing over ascending positions with a non-zero span and
      a non-negative duration, every delay is finite and lies between 0 and
      the whole duration in ms. */
  lemma PointDelayBounded(points: seq<LineDotPoint>, num: int, duration: real)
    requires Ascending(points) && 0 <= num < |points| && duration >= 0.0
    requires points[0].dateValue.value < points[|points| - 1].dateValue.value
    ensures var r := PointDelay(points, num, true, false, duration);
      r.Finite? && 0.0 <= r.v <= duration * MillisecondsInOneSecond
  {
    if num > 0 {
      var r := PointDelay(points, num, true, false, duration);
      var t0 := points[0].dateValue.value;
      var tl := points[|points| - 1].dateValue.value;
      var t := points[num].dateValue.value;
      assert t0 <= t <= tl;
      QuotientInUnit(r.v, t - t0, tl - t0, duration * MillisecondsInOneSecond);
    }
  }

  /** Lemma: while playing over ascending positions with a non-zero span,
      a later point never starts earlier. */
  lemma PointDelayMonotone(points: seq<LineDotPoint>, j: int, k: int, duration: real)
    requires Ascending(points) && 0 <= j <= k < |points| && duration >= 0.0
    requires points[0].dateValue.value < points[|points| - 1].dateValue.value
    ensures PointDelay(points, j, true, false, duration).v <= PointDelay(points, k, true, false, duration).v
  {
    PointDelayBounded(points, j, duration);
    PointDelayBounded(points, k, duration);
    if j > 0 {
      var rj := PointDelay(points, j, true, false, duration).v;
      var rk := PointDelay(points, k, true, false, duration).v;
      var t0 := points[0].dateValue.value;
      var tj := points[j].dateValue.value;
      var tk := points[k].dateValue.value;
      var span := points[|points| - 1].dateValue.value - t0;
      var d := duration * MillisecondsInOneSecond;
      assert rj * span == d * (tj - t0);
      assert rk * span == d * (tk - t0);
      assert tj <= tk;
      ProductOfNonNegatives(d, tk - tj);
      assert (rk - rj) * span == d * (tk - tj);
      NonNegativeFactor(rk - rj, span);
    }
  }

  lemma ProductOfNonNegatives(x: real, y: real)
    requires x >= 0.0 && y >= 0.0
    ensures x * y >= 0.0
  {
  }

  /** Lemma: the last point starts exactly when the line's clip sweep ends. */
  lemma LastPointDelayIsDuration(points: seq<LineDotPoint>, duration: real)
    requires |points| > 1 && points[0].dateValue.value != points[|points| - 1].dateValue.value
    ensures PointDelay(points, |points| - 1, true, false, duration) == Finite(duration * MillisecondsInOneSecond)
  {
  }

  /** Lemma: when the first and last points share a position (two rows on
      the same date), every later point's delay is not a finite number. */
  lemma FlatSpanDelayIsNotFinite(points: seq<LineDotPoint>, num: int, duration: real)
    requires 0 < num < |points| && points[0].dateValue.value == points[|points| - 1].dateValue.value
    ensures !PointDelay(points, num, true, false, duration).Finite?
  {
  }

  /** Lemma: unless playing, no point waits, in either phase. */
  lemma NoDelaysUnlessPlaying(points: seq<LineDotPoint>, num: int, isAnimated: bool, isStopped: bool, duration: real)
    requires StateOf(isAnimated, isStopped) != Playing
    ensures PointDelay(points, num, isAnimated, isStopped, duration) == Finite(0.0)
    ensures SettleDelay(PointDelay(points, num, isAnimated, isStopped, duration), PointTimeOf(isAnimated, isStopped)) == Finite(0.0)
  {
  }

  /** The counter caption set when a dot's first phase starts: empty when
      the counter is hidden; otherwise the title, a space, and the row's
      counter value (formatted as a Date under a date-time counter), or the
      1-based row number when that value is falsy. `toText` is JavaScript's
      string conversion. */
  function CounterCaption(show: bool, title: string, counter: Prim, index: nat, isDateTime: bool,
                          dateFormat: Prim -> string, toText: Prim -> string, parse: string -> Option<int>): (c: string)
    ensures !show ==> c == ""
    ensures show ==> |c| >= |title| + 1 && c[..|title| + 1] == title + " "
    ensures show && Truthy(counter) && isDateTime ==> c[|title| + 1..] == dateFormat(NewDate(counter, parse))
    ensures show && Truthy(counter) && !isDateTime ==> c[|title| + 1..] == toText(counter)
    ensures show && !Truthy(counter) ==> c[|title| + 1..] == toText(Num((index + 1) as real))
  {
    if !show then ""
    else
      var suffix :=
        if Truthy(counter) then (if isDateTime then dateFormat(NewDate(counter, parse)) else toText(counter))
        else toText(Num((index + 1) as real));
      var c := title + " " + suffix;
      assert c[..|title| + 1] == title + " ";
      assert c[|title| + 1..] == suffix;
      c
  }

  /** Lemma: a shown caption starts with the validated counter title text. */
  lemma CaptionStartsWithTitleText(s: Settings, counter: Prim, index: nat, isDateTime: bool,
                                  dateFormat: Prim -> string, toText: Prim -> string, parse: string -> Option<int>)
    requires s.counterShow
    ensures var c := CounterCaption(s.counterShow, s.counterTitle, counter, index, isDateTime, dateFormat, toText, parse);
      c[..|CounterTitleText(s)|] == CounterTitleText(s)
  {
    var c := CounterCaption(s.counterShow, s.counterTitle, counter, index, isDateTime, dateFormat, toText, parse);
    assert c[..|s.counterTitle|] == c[..|s.counterTitle| + 1][..|s.counterTitle|];
  }

  /** Lemma: a counter of 0 is falsy, so the caption shows the row number
      instead. */
  lemma ZeroCounterShowsRowNumber(title: string, index: nat, isDateTime: bool,
                                  dateFormat: Prim -> string, toText: Prim -> string, parse: string -> Option<int>)
    ensures CounterCaption(true, title, Num(0.0), index, isDateTime, dateFormat, toText, parse)
      == title + " " + toText(Num((index + 1) as real))
  {
    var c := CounterCaption(true, title, Num(0.0), index, isDateTime, dateFormat, toText, parse);
    assert c == c[..|title| + 1] + c[|title| + 1..];
  }

  /** Lemma: a date-time counter whose value is already a Date is formatted
      as that same Date. */
  lemma DateCounterFormatsItself(title: string, ms: int, index: nat,
                                 dateFormat: Prim -> string, toText: Prim -> string, parse: string -> Option<int>)
    ensures var c := CounterCaption(true, title, Date(ms), index, true, dateFormat, toText, parse);
      c[|title| + 1..] == dateFormat(Date(ms))
  {
  }

  /** The dot radius: the minimum size plus the normalized value's share of
      the size range. */
  function DotRadius(min: real, max: real, dot: real): (r: real)
    ensures dot == 0.0 ==> r == min
    ensures dot == 1.0 ==> r == max
    ensures min <= max && 0.0 <= dot <= 1.0 ==> min <= r <= max
    ensures min < max ==> (r < min <==> dot < 0.0) && (r > max <==> dot > 1.0)
  {
    var span := max - min;
    var share := dot * span;
    ScaledShare(dot, span, share);
    min + share
  }

  /** `dot * span` compared with `0` and `span`, for a positive span. */
  lemma ScaledShare(dot: real, span: real, share: real)
    requires share == dot * span
    ensures 0.0 <= dot <= 1.0 && span >= 0.0 ==> 0.0 <= share <= span
    ensures span > 0.0 ==> (share < 0.0 <==> dot < 0.0) && (share > span <==> dot > 1.0)
  {
    if span > 0.0 {
      if dot < 0.0 { assert dot * span < 0.0; }
      if dot > 1.0 { assert dot * span > 1.0 * span; }
      if 0.0 <= dot <= 1.0 { assert dot * span <= 1.0 * span; }
    }
  }

  /** Lemma: every dot of a well-formed view model drawn under validated
      settings has a radius between the validated sizes, so within
      [0, 50]. */
  lemma DotRadiusWithinSettings(vm: ViewModel, opacity: real, raw: RawSettings, localizedTitle: string, k: int)
    requires WellFormed(vm, opacity) && 0 <= k < |vm.dotPoints|
    ensures var s := ParseSettings(raw, localizedTitle);
      var r := DotRadius(s.dotSizeMin, s.dotSizeMax, vm.dotPoints[k].dot);
      s.dotSizeMin <= r <= s.dotSizeMax && MinDotSize <= r <= MaxDotSize
  {
  }

  /** Lemma: with the [5, null, 7] series the as-written extent gives the
      middle row's dot (-2.5) a negative radius under the default sizes 4
      to 38. */
  lemma MissingValueShrinksDotBelowMinimum()
    ensures DotRadius(4.0, 38.0, -2.5) == -81.0
  {
  }
}

=== FILE: axes.dfy ===
/** The numbers behind the axes: effective plot size, the x and y domains
    handed to the axis helper, the forced x tick count and the x label
    width. Tick generation itself belongs to the axis helper. */
module Axes {
  import opened Js
  import opened Extents
  import opened ViewModel

  const LegendSize: real := 50.0
  const AxisSize: real := 30.0
  /** Trailing pad of the x domain, and the half-width of a flat,
      non-integer y domain. */
  const DateMaxCutter: real := 0.05
  const ForcedTickSize: real := 150.0
  const XLabelMaxWidth: real := 160.0
  const XLabelTickSize: real := 3.2

  datatype Viewport = Viewport(width: real, height: real)

  /** A continuous x domain, or the explicit list of ordinal positions. */
  datatype XDomain = Continuous(lo: real, hi: real) | Ordinal(positions: seq<real>)

  datatype AxesModel = AxesModel(
    effectiveWidth: real,
    effectiveHeight: real,
    x: XDomain,
    forcedTickCount: real,
    xLabelMaxWidth: real,
    y: Option<Interval>)

  function Max(a: real, b: real): real { if a < b then b else a }
  function Min(a: real, b: real): real { if a < b then a else b }

  /** The positions of the category rows, in order. */
  function Positions(dvs: seq<DateValue>): (r: seq<real>)
    ensures |r| == |dvs|
    ensures forall k :: 0 <= k < |dvs| ==> r[k] == dvs[k].value
  {
    seq(|dvs|, k requires 0 <= k < |dvs| => dvs[k].value)
  }

  /** The x domain: the row positions for ordinal categories; otherwise
      from the smallest position to the largest plus a 5% trailing pad. */
  function XDomainOf(dvs: seq<DateValue>, isOrdinal: bool): (d: XDomain)
    requires |dvs| > 0
    ensures isOrdinal ==> (d.Ordinal? && |d.positions| == |dvs|
      && forall k :: 0 <= k < |dvs| ==> d.positions[k] == dvs[k].value)
    ensures !isOrdinal ==> (d.Continuous? && d.lo <= d.hi
      && (forall k :: 0 <= k < |dvs| ==> d.lo <= dvs[k].value <= d.hi)
      && (exists k :: 0 <= k < |dvs| && dvs[k].value == d.lo)
      && (exists k :: 0 <= k < |dvs|
            && (forall j :: 0 <= j < |dvs| ==> dvs[j].value <= dvs[k].value)
            && d.hi - d.lo == (1.0 + DateMaxCutter) * (dvs[k].value - d.lo)))
  {
    var ps := Positions(dvs);
    if isOrdinal then Ordinal(ps)
    else
      var e := Extent(ps).value;
      assert e.lo in ps && e.hi in ps;
      Continuous(e.lo, e.hi + (e.hi - e.lo) * DateMaxCutter)
  }

  /** The y domain. A flat series is widened on both sides, by 1 when its
      value is a non-zero integer and by 0.05 otherwise (0 included); any
      other series gets a 10% margin on top for the counter. */
  function YDomain(yMin: real, yMax: real): (r: Interval)
    ensures yMin <= yMax ==> r.lo < r.hi && r.lo <= yMin && yMax <= r.hi
    ensures yMin < yMax ==> r.lo == yMin && r.hi - r.lo == (1.0 + SpaceForCounter) * (yMax - yMin)
    ensures yMin == yMax ==> r.hi - yMax == yMin - r.lo
    ensures yMin == yMax && IsInteger(yMin) && yMin != 0.0 ==> r.hi - r.lo == 2.0
    ensures yMin == yMax && !(IsInteger(yMin) && yMin != 0.0) ==> r.hi - r.lo == 2.0 * DateMaxCutter
  {
    if yMax == yMin then
      if IsInteger(yMin) && yMin != 0.0 then Interval(yMin - 1.0, yMax + 1.0)
      else Interval(yMin - DateMaxCutter, yMax + DateMaxCutter)
    else Interval(yMin, yMax + (yMax - yMin) * SpaceForCounter)
  }

  /** `calculateAxes`, the numeric part. `viewport` is the visual's size,
      `inner` the size inside the layout margins. The caller only reaches
      it with at least one point. */
  function CalculateAxes(vm: ViewModel, viewport: Viewport, inner: Viewport): (a: AxesModel)
    requires |vm.dateValues| > 0
    ensures a.effectiveWidth >= 0.0 && a.effectiveHeight >= 0.0
    ensures inner.width >= LegendSize + AxisSize ==> a.effectiveWidth == inner.width - LegendSize - AxisSize
    ensures inner.width <= LegendSize + AxisSize ==> a.effectiveWidth == 0.0
    ensures inner.height >= LegendSize ==> a.effectiveHeight == inner.height - LegendSize
    ensures inner.height <= LegendSize ==> a.effectiveHeight == 0.0
    ensures a.x == XDomainOf(vm.dateValues, vm.isOrdinal)
    ensures a.forcedTickCount >= 0.0
    ensures viewport.width >= 0.0 ==> a.forcedTickCount * ForcedTickSize == viewport.width
    ensures a.xLabelMaxWidth <= XLabelMaxWidth && a.xLabelMaxWidth * XLabelTickSize <= inner.width
    ensures a.xLabelMaxWidth == XLabelMaxWidth || a.xLabelMaxWidth * XLabelTickSize == inner.width
    ensures a.y.None? <==> vm.yRange.None?
    ensures a.y.Some? ==> a.y.value == YDomain(vm.yRange.value.lo, vm.yRange.value.hi)
  {
    AxesModel(
      Max(0.0, inner.width - LegendSize - AxisSize),
      Max(0.0, inner.height - LegendSize),
      XDomainOf(vm.dateValues, vm.isOrdinal),
      Max(viewport.width / ForcedTickSize, 0.0),
      Min(XLabelMaxWidth, inner.width / XLabelTickSize),
      match vm.yRange
      case None => None
      case Some(i) => Some(YDomain(i.lo, i.hi)))
  }

  /** Lemma: an integer flat series at 5 gets the domain [4, 6]. */
  lemma FlatIntegerSeries()
    ensures YDomain(5.0, 5.0) == Interval(4.0, 6.0)
  {
    assert IsInteger(5.0) by { assert (5.0).Floor == 5; }
  }

  /** Lemma: a fractional flat series at 5.2 gets [5.15, 5.25]. */
  lemma FlatFractionalSeries()
    ensures YDomain(5.2, 5.2) == Interval(5.15, 5.25)
  {
    assert !IsInteger(5.2) by { assert (5.2).Floor == 5; }
  }

  /** Lemma: a flat series at 0 takes the fractional branch: [-0.05, 0.05]. */
  lemma FlatZeroSeries()
    ensures YDomain(0.0, 0.0) == Interval(-0.05, 0.05)
  {
  }

  /** Lemma: for a well-formed ordinal view model the x domain lists the
      row indices 0, 1, ..., n-1, one tick per category in input order. */
  lemma OrdinalDomainIsRowIndices(vm: ViewModel, opacity: real)
    requires WellFormed(vm, opacity) && vm.isOrdinal
    ensures var d := XDomainOf(vm.dateValues, true);
      |d.positions| == |vm.dotPoints| && forall k :: 0 <= k < |d.positions| ==> d.positions[k] == k as real
  {
  }

  /** Lemma: every point's value of a well-formed view model lies inside the
      y domain, strictly below its top when the series is not flat. */
  lemma PointsInsideYDomain(vm: ViewModel, opacity: real, k: int)
    requires WellFormed(vm, opacity) && 0 <= k < |vm.dotPoints|
    ensures var i := vm.yRange.value; var d := YDomain(i.lo, i.hi);
      d.lo <= vm.dotPoints[k].value <= d.hi
      && (i.lo < i.hi ==> vm.dotPoints[k].value < d.hi)
  {
  }
}

=== FILE: columns.dfy ===
/** The column resolver: locates the data view's columns by role ("Date",
    "Values") and projects their values, turning date-like strings into
    Dates on the way. */
module Columns {
  import opened Js

  datatype Role = DateRole | ValuesRole | CounterRole

  /** The value type the host reports for a column. */
  datatype ValueKind = DateTimeKind | TextKind | NumericKind

  /** Column metadata: the roles it is bound to, its display name, its value
      type, and the name the host's series helper reports for it. */
  datatype Source = Source(displayName: string, roles: set<Role>, kind: ValueKind, seriesName: Prim)

  datatype Column = Column(source: Source, values: seq<Prim>, highlights: Option<seq<Prim>>)

  /** The measure columns; `source` is present when the measures are grouped
      by a series field. */
  datatype ValueColumns = ValueColumns(source: Option<Source>, columns: seq<Column>)

  /** The categorical part of a data view; a missing list is the empty one. */
  datatype Categorical = Categorical(categories: seq<Column>, values: ValueColumns)

  datatype DataView = DataView(categorical: Option<Categorical>)

  /** What a role resolves to: the first category column carrying it, the
      whole measure group, the measure columns carrying it, or nothing. */
  datatype Resolved = Unresolved | CategoryColumn(column: Column) | Grouped(group: ValueColumns) | Filtered(columns: seq<Column>)

  /** One entry per role of the chart's column record (`Date`, `Values`). */
  datatype Roles<T> = Roles(date: T, values: T)

  predicate HasRole(c: Column, role: Role) {
    role in c.source.roles
  }

  predicate GroupHasRole(g: ValueColumns, role: Role) {
    g.source.Some? && role in g.source.value.roles
  }

  /** `i` is the position of the first column of `cols` carrying `role`. */
  ghost predicate IsFirstWithRole(cols: seq<Column>, role: Role, i: int) {
    0 <= i < |cols| && HasRole(cols[i], role) && forall j :: 0 <= j < i ==> !HasRole(cols[j], role)
  }

  /** The columns carrying `role`, in their original order. */
  function WithRole(cols: seq<Column>, role: Role): (r: seq<Column>)
    ensures forall c :: c in r <==> c in cols && HasRole(c, role)
    ensures |r| <= |cols|
  {
    if |cols| == 0 then []
    else
      var rest := WithRole(cols[1..], role);
      assert forall c :: c in cols <==> c == cols[0] || c in cols[1..];
      if HasRole(cols[0], role) then [cols[0]] + rest else rest
  }

  /** Lemma: the head of the filtered list is the first column carrying the
      role. */
  lemma {:induction false} WithRoleHeadIsFirst(cols: seq<Column>, role: Role)
    requires |WithRole(cols, role)| > 0
    ensures exists i :: IsFirstWithRole(cols, role, i) && WithRole(cols, role)[0] == cols[i]
  {
    if HasRole(cols[0], role) {
      assert IsFirstWithRole(cols, role, 0);
    } else {
      WithRoleHeadIsFirst(cols[1..], role);
      var i :| IsFirstWithRole(cols[1..], role, i) && WithRole(cols[1..], role)[0] == cols[1..][i];
      assert IsFirstWithRole(cols, role, i + 1);
    }
  }

  /** Role resolution for one role of a categorical data view. */
  function Resolve(c: Categorical, role: Role): (r: Resolved)
    ensures r.CategoryColumn? <==> exists k :: 0 <= k < |c.categories| && HasRole(c.categories[k], role)
    ensures r.CategoryColumn? ==> exists i :: IsFirstWithRole(c.categories, role, i) && r.column == c.categories[i]
    ensures r.Grouped? ==> r.group == c.values
    ensures r.Grouped? <==>
      (forall k :: 0 <= k < |c.categories| ==> !HasRole(c.categories[k], role)) && GroupHasRole(c.values, role)
    ensures r.Filtered? ==> |r.columns| > 0 && r.columns == WithRole(c.values.columns, role)
    ensures r.Filtered? ==> forall x :: x in r.columns <==> x in c.values.columns && HasRole(x, role)
    ensures r.Unresolved? <==>
      (forall k :: 0 <= k < |c.categories| ==> !HasRole(c.categories[k], role))
      && !GroupHasRole(c.values, role)
      && (forall k :: 0 <= k < |c.values.columns| ==> !HasRole(c.values.columns[k], role))
  {
    var cats := WithRole(c.categories, role);
    if |cats| > 0 then
      WithRoleHeadIsFirst(c.categories, role);
      CategoryColumn(cats[0])
    else if GroupHasRole(c.values, role) then Grouped(c.values)
    else
      var filtered := WithRole(c.values.columns, role);
      if |filtered| == 0 then Unresolved
      else
        assert filtered[0] in c.values.columns;
        Filtered(filtered)
  }

  /** `getCategoricalColumns`: falsy without a categorical part, otherwise
      both roles resolved. */
  function GetCategoricalColumns(dv: DataView): (r: Option<Roles<Resolved>>)
    ensures r.None? <==> dv.categorical.None?
    ensures r.Some? ==> r.value.date == Resolve(dv.categorical.value, DateRole)
    ensures r.Some? ==> r.value.values == Resolve(dv.categorical.value, ValuesRole)
  {
    match dv.categorical
    case None => None
    case Some(c) => Some(Roles(Resolve(c, DateRole), Resolve(c, ValuesRole)))
  }

  /** Best-effort coercion of one cell: a string the date parser accepts
      becomes that Date, every other value passes through. */
  function Coerce(p: Prim, parse: string -> Option<int>): (q: Prim)
    ensures !p.Text? ==> q == p
    ensures p.Text? && parse(p.s).Some? ==> q == Date(parse(p.s).value)
    ensures p.Text? && parse(p.s).None? ==> q == p
  {
    match p
    case Text(s) => (match parse(s) case Some(ms) => Date(ms) case None => p)
    case _ => p
  }

  /** The cells of one column, coerced one by one. */
  function CoerceAll(vs: seq<Prim>, parse: string -> Option<int>): (r: seq<Prim>)
    ensures |r| == |vs|
    ensures forall k :: 0 <= k < |vs| ==> r[k] == Coerce(vs[k], parse)
  {
    seq(|vs|, k requires 0 <= k < |vs| => Coerce(vs[k], parse))
  }

  /** The series names of the measure columns, one per column. */
  function SeriesNames(cols: seq<Column>): (r: seq<Prim>)
    ensures |r| == |cols|
    ensures forall k :: 0 <= k < |cols| ==> r[k] == cols[k].source.seriesName
  {
    seq(|cols|, k requires 0 <= k < |cols| => cols[k].source.seriesName)
  }

  /** The values projected for one role: the coerced values of the first
      category-or-measure column carrying it; failing that, the series names
      when the measure group carries it; otherwise nothing. */
  function Project(c: Categorical, role: Role, parse: string -> Option<int>): (r: Option<seq<Prim>>)
    ensures r.None? <==>
      (forall k :: 0 <= k < |c.categories + c.values.columns| ==> !HasRole((c.categories + c.values.columns)[k], role))
      && !GroupHasRole(c.values, role)
    ensures r.Some? && (exists k :: 0 <= k < |c.categories + c.values.columns| && HasRole((c.categories + c.values.columns)[k], role)) ==>
      exists i :: IsFirstWithRole(c.categories + c.values.columns, role, i)
        && r.value == CoerceAll((c.categories + c.values.columns)[i].values, parse)
    ensures ((forall k :: 0 <= k < |c.categories + c.values.columns| ==> !HasRole((c.categories + c.values.columns)[k], role))
      && GroupHasRole(c.values, role)) ==> r == Some(SeriesNames(c.values.columns))
  {
    var matching := WithRole(c.categories + c.values.columns, role);
    if |matching| > 0 then
      WithRoleHeadIsFirst(c.categories + c.values.columns, role);
      Some(CoerceAll(matching[0].values, parse))
    else if GroupHasRole(c.values, role) then Some(SeriesNames(c.values.columns))
    else None
  }

  /** `getCategoricalValues`: falsy without a categorical part, otherwise the
      projection of both roles. */
  function GetCategoricalValues(dv: DataView, parse: string -> Option<int>): (r: Option<Roles<Option<seq<Prim>>>>)
    ensures r.None? <==> dv.categorical.None?
    ensures r.Some? ==> r.value == Roles(Project(dv.categorical.value, DateRole, parse), Project(dv.categorical.value, ValuesRole, parse))
  {
    match dv.categorical
    case None => None
    case Some(c) => Some(Roles(Project(c, DateRole, parse), Project(c, ValuesRole, parse)))
  }

  /** Lemma: coercion is idempotent, so projecting already-projected values
      changes nothing. */
  lemma CoerceAllIdempotent(vs: seq<Prim>, parse: string -> Option<int>)
    ensures CoerceAll(CoerceAll(vs, parse), parse) == CoerceAll(vs, parse)
  {
    var once := CoerceAll(vs, parse);
    forall k | 0 <= k < |vs|
      ensures Coerce(once[k], parse) == once[k]
    {
      assert once[k] == Coerce(vs[k], parse);
    }
  }

  /** Lemma: a resolved role is never an empty list of columns, and a role
      that no column and no group carries resolves to nothing. */
  lemma ResolvedNeverEmpty(c: Categorical, role: Role)
    ensures Resolve(c, role) != Filtered([])
    ensures (forall x :: x in c.categories + c.values.columns ==> !HasRole(x, role)) && !GroupHasRole(c.values, role)
      ==> Resolve(c, role).Unresolved?
  {
    if (forall x :: x in c.categories + c.values.columns ==> !HasRole(x, role)) {
      assert forall k :: 0 <= k < |c.categories| ==> c.categories[k] in c.categories + c.values.columns;
      assert forall k :: 0 <= k < |c.values.columns| ==> c.values.columns[k] in c.categories + c.values.columns;
    }
  }

  /** Lemma: when the Date column is a category column, the Date projection
      is that same column's values, coerced. */
  lemma DateProjectionIsDateColumn(c: Categorical, parse: string -> Option<int>)
    requires Resolve(c, DateRole).CategoryColumn?
    ensures Project(c, DateRole, parse) == Some(CoerceAll(Resolve(c, DateRole).column.values, parse))
  {
    var all := c.categories + c.values.columns;
    var i :| IsFirstWithRole(c.categories, DateRole, i) && Resolve(c, DateRole).column == c.categories[i];
    assert all[i] == c.categories[i];
    assert IsFirstWithRole(all, DateRole, i);
    var matching := WithRole(all, DateRole);
    assert all[i] in matching;
    WithRoleHeadIsFirst(all, DateRole);
    var j :| IsFirstWithRole(all, DateRole, j) && matching[0] == all[j];
    assert i == j;
  }
}

=== FILE: extents.dfy ===
/** The `[min, max]` extent of a numeric sequence, as d3's `extent` computes
    it in one linear scan. */
module Extents {
  import opened Js

  datatype Interval = Interval(lo: real, hi: real)

  /** All elements of `s` lie in `i`. */
  ghost predicate Covers(i: Interval, s: seq<real>) {
    forall k :: 0 <= k < |s| ==> i.lo <= s[k] <= i.hi
  }

  /** The extent of `s`: undefined for an empty sequence, otherwise the
      smallest and the largest element. */
  function Extent(s: seq<real>): (e: Option<Interval>)
    ensures e.None? <==> |s| == 0
    ensures e.Some? ==> e.value.lo <= e.value.hi && Covers(e.value, s)
    ensures e.Some? ==> e.value.lo in s && e.value.hi in s
  {
    if |s| == 0 then None
    else
      var last := s[|s| - 1];
      match Extent(s[..|s| - 1])
      case None => Some(Interval(last, last))
      case Some(i) =>
        assert s == s[..|s| - 1] + [last];
        Some(Interval(if last < i.lo then last else i.lo, if i.hi < last then last else i.hi))
  }

  /** Lemma: the extent is the tightest interval covering the sequence. */
  lemma ExtentIsTightest(s: seq<real>, j: Interval)
    requires Covers(j, s) && |s| > 0
    ensures Extent(s).Some? && j.lo <= Extent(s).value.lo && Extent(s).value.hi <= j.hi
  {
    var e := Extent(s).value;
    var a :| 0 <= a < |s| && s[a] == e.lo;
    var b :| 0 <= b < |s| && s[b] == e.hi;
  }
}

=== FILE: js.dfy ===
/** JavaScript values as the chart code sees them: the primitive cell values
    of the host's data view, JavaScript truthiness, the `Date` constructor and
    the IEEE results of an unguarded division. */
module Js {

  datatype Option<+T> = None | Some(value: T)

  /** A primitive value held by a data-view cell. Numbers are reals (the data
      view is not assumed to carry NaN); `Date(ms)` is a Date object with its
      epoch milliseconds and `InvalidDate` a Date object whose time is NaN. */
  datatype Prim = Null | Bool(b: bool) | Num(n: real) | Text(s: string) | Date(ms: int) | InvalidDate

  /** JavaScript truthiness: `null`, `false`, `0` and `""` are falsy, every
      object (including an invalid Date) is truthy. */
  predicate Truthy(p: Prim) {
    match p
    case Null => false
    case Bool(b) => b
    case Num(n) => n != 0.0
    case Text(s) => s != ""
    case Date(_) => true
    case InvalidDate => true
  }

  /** Largest absolute time value a Date can hold (ECMAScript TimeClip). */
  const MaxTime: int := 8_640_000_000_000_000

  /** ToIntegerOrInfinity on a finite number: truncation toward zero. */
  function Truncate(x: real): (t: int)
    ensures -1.0 < t as real - x < 1.0
    ensures x >= 0.0 ==> 0 <= t && t as real <= x
    ensures x < 0.0 ==> t <= 0 && x <= t as real
  {
    if x >= 0.0 then x.Floor else -((-x).Floor)
  }

  /** `Math.floor(x) === x`. */
  predicate IsInteger(x: real) {
    x.Floor as real == x
  }

  /** `new Date(n)` for a number: clipped to the Date range, then truncated. */
  function NumberToDate(n: real): (d: Prim)
    ensures d.Date? <==> -(MaxTime as real) <= n <= MaxTime as real
    ensures d.Date? ==> d.ms == Truncate(n)
    ensures IsInteger(n) && d.Date? ==> d.ms as real == n
  {
    TruncateInteger(n);
    if n < -(MaxTime as real) || MaxTime as real < n then InvalidDate else Date(Truncate(n))
  }

  /** Truncation keeps an integral number as it is. */
  lemma TruncateInteger(x: real)
    ensures IsInteger(x) ==> Truncate(x) as real == x
  {
    if IsInteger(x) && x < 0.0 {
      var i := x.Floor;
      assert (-x) == (-i) as real;
      assert ((-i) as real).Floor == -i;
    }
  }

  /** `new Date(p)`: a Date is copied, a number is clipped and truncated, a
      string goes through the host's date parser (`parse`, None when the
      string is not a date), `null` is the epoch and a boolean is 0 or 1. */
  function NewDate(p: Prim, parse: string -> Option<int>): (d: Prim)
    ensures d.Date? || d.InvalidDate?
    ensures p.Date? ==> d == p
    ensures p.Num? && (p.n < -(MaxTime as real) || MaxTime as real < p.n) ==> d.InvalidDate?
    ensures d.Date? && p.Num? ==> d.ms == Truncate(p.n)
  {
    match p
    case Null => Date(0)
    case Bool(b) => Date(if b then 1 else 0)
    case Num(n) => NumberToDate(n)
    case Text(s) => (match parse(s) case Some(ms) => Date(ms) case None => InvalidDate)
    case Date(ms) => p
    case InvalidDate => InvalidDate
  }

  /** A JavaScript number that may be one of the IEEE specials. */
  datatype Number = Finite(v: real) | NaN | PosInfinity | NegInfinity

  /** `x / y` on finite numbers: a zero divisor gives NaN or an infinity. */
  function Divide(x: real, y: real): (r: Number)
    ensures r.Finite? <==> y != 0.0
    ensures r.Finite? ==> r.v * y == x
    ensures r.NaN? <==> y == 0.0 && x == 0.0
    ensures r.PosInfinity? <==> y == 0.0 && x > 0.0
    ensures r.NegInfinity? <==> y == 0.0 && x < 0.0
  {
    if y != 0.0 then Finite(x / y)
    else if x > 0.0 then PosInfinity
    else if x < 0.0 then NegInfinity
    else NaN
  }

  /** `(a + b) / c` for a possibly special `a` and finite, non-zero `c`;
      the specials propagate. */
  function AddThenDivide(a: Number, b: real, c: real): (r: Number)
    requires c != 0.0
    ensures r.Finite? <==> a.Finite?
    ensures r.Finite? ==> r.v * c == a.v + b
    ensures r.NaN? <==> a.NaN?
    ensures c > 0.0 ==> (r.PosInfinity? <==> a.PosInfinity?) && (r.NegInfinity? <==> a.NegInfinity?)
    ensures c < 0.0 ==> (r.PosInfinity? <==> a.NegInfinity?) && (r.NegInfinity? <==> a.PosInfinity?)
  {
    match a
    case Finite(v) => Finite((v + b) / c)
    case NaN => NaN
    case PosInfinity => if c > 0.0 then PosInfinity else NegInfinity
    case NegInfinity => if c > 0.0 then NegInfinity else PosInfinity
  }
}

=== FILE: selection.dfy ===
/** Selection and highlight dimming: the fill opacity of a dot given its own
    selection and highlight flags and whether the chart has any selection or
    partial highlights. The same rule is applied when the dots are drawn and
    when the selection changes. */
module Selection {
  import opened ViewModel

  const MinOpacity: real := 0.1
  const DimmedOpacity: real := 0.4

  /** `getFillOpacity`: a dot is dimmed by 0.4, but not below 0.1, when the
      chart has partial highlights and the dot is not highlighted, or has a
      selection and the dot is not selected. */
  function FillOpacity(opacity: real, selected: bool, highlight: bool, hasSelection: bool, hasPartialHighlights: bool)
    : (r: real)
    ensures !((hasPartialHighlights && !highlight) || (hasSelection && !selected)) ==> r == opacity
    ensures (hasPartialHighlights && !highlight) || (hasSelection && !selected) ==>
      r >= MinOpacity && r >= opacity - DimmedOpacity && (r == MinOpacity || r == opacity - DimmedOpacity)
    ensures (hasPartialHighlights && !highlight) || (hasSelection && !selected) ==>
      (r < opacity <==> opacity > MinOpacity)
    ensures (if opacity < MinOpacity then opacity else MinOpacity) <= r <= (if opacity < MinOpacity then MinOpacity else opacity)
  {
    if (hasPartialHighlights && !highlight) || (hasSelection && !selected) then
      var dimmed := opacity - DimmedOpacity;
      if dimmed < MinOpacity then MinOpacity else dimmed
    else opacity
  }

  /** Whether a dot is shown dimmed: it is neither selected nor highlighted
      while the chart has a selection or highlights. */
  predicate Dimmed(p: LineDotPoint, hasSelection: bool, hasHighlights: bool) {
    !p.selected && !p.highlight && (hasSelection || hasHighlights)
  }

  /** The opacity of one dot, with the arguments wired as at both call
      sites: the selection flag only counts for a dot that is not
      highlighted, the highlight flag only for a dot that is not selected. */
  function PointOpacity(p: LineDotPoint, hasSelection: bool, hasHighlights: bool): (r: real)
    ensures Dimmed(p, hasSelection, hasHighlights) ==>
      r >= MinOpacity && r >= p.opacity - DimmedOpacity && (r == MinOpacity || r == p.opacity - DimmedOpacity)
    ensures !Dimmed(p, hasSelection, hasHighlights) ==> r == p.opacity
  {
    FillOpacity(p.opacity, p.selected, p.highlight, !p.highlight && hasSelection, !p.selected && hasHighlights)
  }

  /** `renderSelection`: the opacity of every dot, in order. */
  function RenderSelection(points: seq<LineDotPoint>, hasSelection: bool, hasHighlights: bool): (r: seq<real>)
    ensures |r| == |points|
    ensures forall k :: 0 <= k < |points| ==> r[k] == PointOpacity(points[k], hasSelection, hasHighlights)
  {
    seq(|points|, k requires 0 <= k < |points| => PointOpacity(points[k], hasSelection, hasHighlights))
  }

  /** Lemma: the wired condition dims exactly the dots that are neither
      selected nor highlighted, and only while the chart has a selection or
      highlights; a highlighted but unselected dot keeps its opacity under a
      selection. */
  lemma WiringDimsExactly(p: LineDotPoint, hasSelection: bool, hasHighlights: bool)
    ensures var hasSel := !p.highlight && hasSelection;
      var hasPartial := !p.selected && hasHighlights;
      ((hasPartial && !p.highlight) || (hasSel && !p.selected)) <==> Dimmed(p, hasSelection, hasHighlights)
  {
  }

  /** Lemma: a dot's opacity depends only on its own opacity, selection and
      highlight and on the two chart-wide flags; its position, value and the
      other dots do not matter. */
  lemma OpacityDependsOnOwnFlags(p: LineDotPoint, q: LineDotPoint, hasSelection: bool, hasHighlights: bool)
    requires p.opacity == q.opacity && p.selected == q.selected && p.highlight == q.highlight
    ensures PointOpacity(p, hasSelection, hasHighlights) == PointOpacity(q, hasSelection, hasHighlights)
  {
  }

  /** Lemma: with neither a selection nor highlights, every dot keeps its
      opacity. */
  lemma NothingDimsWithoutSelection(points: seq<LineDotPoint>)
    ensures RenderSelection(points, false, false) == seq(|points|, k requires 0 <= k < |points| => points[k].opacity)
  {
  }

  /** Lemma: dimming keeps an opacity from [0.1, 1] inside [0.1, 1] and
      never raises it. */
  lemma DimmingStaysInRange(p: LineDotPoint, hasSelection: bool, hasHighlights: bool)
    requires MinOpacity <= p.opacity <= 1.0
    ensures MinOpacity <= PointOpacity(p, hasSelection, hasHighlights) <= p.opacity
  {
  }

  /** Lemma: a full-opacity dot dims to 0.6, a 0.3 dot to the floor 0.1. */
  lemma DimmingExamples(p: LineDotPoint, q: LineDotPoint)
    requires p.opacity == 1.0 && q.opacity == 0.3
    ensures FillOpacity(p.opacity, false, false, true, false) == 0.6
    ensures FillOpacity(q.opacity, false, false, false, true) == MinOpacity
  {
  }

  /** Lemma: in a freshly built view model nothing is selected, so only
      highlights can dim, and they dim exactly the dots that are not
      highlighted. */
  lemma FreshModelDimsUnhighlighted(vm: ViewModel, opacity: real, k: int, hasSelection: bool)
    requires WellFormed(vm, opacity) && 0 <= k < |vm.dotPoints|
    ensures Dimmed(vm.dotPoints[k], hasSelection, vm.hasHighlights)
      <==> !vm.dotPoints[k].highlight && (hasSelection || vm.hasHighlights)
  {
  }
}

=== FILE: settings.dfy ===
/** The settings validation pass: the raw settings bag is read from the host,
    the counter title falls back to its localized default and the numeric
    settings are clamped, in order, into their bounds. */
module ChartSettings {
  import opened Js

  /** Default bounds of the clamped settings. */
  const MinDotSize: real := 0.0
  const MaxDotSize: real := 50.0
  const MinLineThickness: real := 0.0
  const MaxLineThickness: real := 50.0
  const MinDuration: real := 0.0
  const MaxDuration: real := 1000.0

  /** The settings as read from the host; `counterTitle` may be missing. */
  datatype RawSettings = RawSettings(
    counterShow: bool,
    counterTitle: Option<string>,
    dotSizeMin: real,
    dotSizeMax: real,
    percentile: real,
    lineThickness: real,
    isAnimated: bool,
    isStopped: bool,
    duration: real)

  /** The settings after the validation pass. */
  datatype Settings = Settings(
    counterShow: bool,
    counterTitle: string,
    dotSizeMin: real,
    dotSizeMax: real,
    percentile: real,
    lineThickness: real,
    isAnimated: bool,
    isStopped: bool,
    duration: real)

  /** `getValidValue`: the bound a value falls below or above, else the value. */
  function GetValidValue(value: real, min: real, max: real): (r: real)
    ensures value < min ==> r == min
    ensures min <= value && value > max ==> r == max
    ensures min <= value <= max ==> r == value
    ensures min <= max ==> min <= r <= max
    ensures r == value || r == min || r == max
  {
    if value < min then min
    else if value > max then max
    else value
  }

  /** A missing or empty title is falsy and is replaced. */
  predicate TitleFalsy(t: Option<string>) {
    t.None? || t.value == ""
  }

  /** `Settings.parseSettings`: the title default, then dot min, dot max
      (against the already clamped min), line thickness and duration. */
  function ParseSettings(raw: RawSettings, localizedTitle: string): (s: Settings)
    ensures TitleFalsy(raw.counterTitle) ==> s.counterTitle == localizedTitle
    ensures !TitleFalsy(raw.counterTitle) ==> s.counterTitle == raw.counterTitle.value
    ensures MinDotSize <= s.dotSizeMin <= s.dotSizeMax <= MaxDotSize
    ensures MinLineThickness <= s.lineThickness <= MaxLineThickness
    ensures MinDuration <= s.duration <= MaxDuration
    ensures MinDotSize <= raw.dotSizeMin <= raw.dotSizeMax <= MaxDotSize ==>
      s.dotSizeMin == raw.dotSizeMin && s.dotSizeMax == raw.dotSizeMax
    ensures s.dotSizeMin == GetValidValue(raw.dotSizeMin, MinDotSize, MaxDotSize)
    ensures s.dotSizeMax == GetValidValue(raw.dotSizeMax, s.dotSizeMin, MaxDotSize)
    ensures raw.lineThickness < MinLineThickness ==> s.lineThickness == MinLineThickness
    ensures raw.lineThickness > MaxLineThickness ==> s.lineThickness == MaxLineThickness
    ensures MinLineThickness <= raw.lineThickness <= MaxLineThickness ==> s.lineThickness == raw.lineThickness
    ensures raw.duration < MinDuration ==> s.duration == MinDuration
    ensures raw.duration > MaxDuration ==> s.duration == MaxDuration
    ensures MinDuration <= raw.duration <= MaxDuration ==> s.duration == raw.duration
    ensures s.counterShow == raw.counterShow && s.percentile == raw.percentile
    ensures s.isAnimated == raw.isAnimated && s.isStopped == raw.isStopped
  {
    var title := if TitleFalsy(raw.counterTitle) then localizedTitle else raw.counterTitle.value;
    var dotMin := GetValidValue(raw.dotSizeMin, MinDotSize, MaxDotSize);
    var dotMax := GetValidValue(raw.dotSizeMax, dotMin, MaxDotSize);
    Settings(
      raw.counterShow,
      title,
      dotMin,
      dotMax,
      raw.percentile,
      GetValidValue(raw.lineThickness, MinLineThickness, MaxLineThickness),
      raw.isAnimated,
      raw.isStopped,
      GetValidValue(raw.duration, MinDuration, MaxDuration))
  }

  /** `CounterSettings.counterTitleText`: the title when the counter is
      shown, the empty string otherwise. */
  function CounterTitleText(s: Settings): (t: string)
    ensures s.counterShow ==> t == s.counterTitle
    ensures !s.counterShow ==> t == ""
  {
    if s.counterShow then s.counterTitle else ""
  }

  /** Lemma: clamping is idempotent when the bounds are ordered. */
  lemma GetValidValueIdempotent(value: real, min: real, max: real)
    requires min <= max
    ensures GetValidValue(GetValidValue(value, min, max), min, max) == GetValidValue(value, min, max)
  {
  }

  /** Lemma: parsing already valid settings changes nothing numeric, so a
      second validation pass is a no-op. */
  lemma ParseSettingsIdempotent(raw: RawSettings, localizedTitle: string)
    ensures var s := ParseSettings(raw, localizedTitle);
      var again := ParseSettings(RawSettings(s.counterShow, Some(s.counterTitle), s.dotSizeMin, s.dotSizeMax,
        s.percentile, s.lineThickness, s.isAnimated, s.isStopped, s.duration), localizedTitle);
      again.dotSizeMin == s.dotSizeMin && again.dotSizeMax == s.dotSizeMax
      && again.lineThickness == s.lineThickness && again.duration == s.duration
      && again.counterTitle == s.counterTitle
  {
  }

  /** Lemma: the out-of-range dot sizes -6 and 678 resolve to 0 and 50. */
  lemma OutOfRangeDotSizes(raw: RawSettings, localizedTitle: string)
    requires raw.dotSizeMin == -6.0 && raw.dotSizeMax == 678.0
    ensures ParseSettings(raw, localizedTitle).dotSizeMin == 0.0
    ensures ParseSettings(raw, localizedTitle).dotSizeMax == 50.0
  {
  }

  /** Lemma: a dot max below the requested dot min is raised to the clamped
      min, so the clamping order is what keeps min <= max. */
  lemma DotMaxFollowsClampedMin(raw: RawSettings, localizedTitle: string)
    requires MinDotSize <= raw.dotSizeMin <= MaxDotSize && raw.dotSizeMax < raw.dotSizeMin
    ensures ParseSettings(raw, localizedTitle).dotSizeMax == raw.dotSizeMin
  {
  }
}

=== FILE: tickformat.dfy ===
/** The tick-label callbacks the axis helper calls with a tick value and the
    axis's value type: a date-time axis formats the value as a Date, a text
    axis looks up the row's category, and a numeric axis formats the number.
    Formatters are opaque functions from a value to its text. */
module TickFormat {
  import opened Js
  import opened Columns
  import opened ViewModel

  /** What a callback hands back: a string, the raw number, a row's raw
      category value, or a type error (reading `.label` of a missing row). */
  datatype Tick = TickText(s: string) | TickNumber(n: real) | TickCategory(p: Prim) | TickThrows

  /** JavaScript's own number-to-string conversion and `!isNaN(Number(s))`,
      both left uninterpreted. */
  datatype NumberText = NumberText(toText: real -> string, isNumeric: string -> bool)

  /** `dateValues[index].label`: defined only at a row index. */
  function CategoryAt(dvs: seq<DateValue>, index: real): (t: Tick)
    ensures t.TickCategory? <==> IsInteger(index) && 0.0 <= index < |dvs| as real
    ensures t.TickCategory? ==> t.p == dvs[index.Floor].category
    ensures !t.TickCategory? ==> t == TickThrows
  {
    if IsInteger(index) && 0.0 <= index < |dvs| as real then TickCategory(dvs[index.Floor].category)
    else TickThrows
  }

  /** `getColumnFormattingCallback`: the category formatter over a Date for
      a date-time axis, the row's category for a text axis, the category
      formatter over the number otherwise. */
  function ColumnTick(vm: ViewModel, dateFormat: Prim -> string, index: real, kind: ValueKind): (t: Tick)
    ensures kind == DateTimeKind ==> t == TickText(dateFormat(NumberToDate(index)))
    ensures kind == TextKind ==> t == CategoryAt(vm.dateValues, index)
    ensures kind == NumericKind ==> t == TickText(dateFormat(Num(index)))
  {
    match kind
    case DateTimeKind => TickText(dateFormat(NumberToDate(index)))
    case TextKind => CategoryAt(vm.dateValues, index)
    case NumericKind => TickText(dateFormat(Num(index)))
  }

  /** `getValueFormattingCallback`: as the column callback for date-time and
      text axes; for a numeric axis, the raw number when formatting leaves
      its text unchanged, the formatted text when it is not a number (a unit
      or percent sign), and otherwise the raw number only when it has a
      fractional part the formatted text would round away. */
  function ValueTick(vm: ViewModel, valueFormat: Prim -> string, numbers: NumberText, index: real, kind: ValueKind): (t: Tick)
    ensures kind == DateTimeKind ==> t == TickText(valueFormat(NumberToDate(index)))
    ensures kind == TextKind ==> t == CategoryAt(vm.dateValues, index)
    ensures kind == NumericKind ==> t == TickNumber(index) || t == TickText(valueFormat(Num(index)))
    ensures kind == NumericKind ==>
      var formatted := valueFormat(Num(index));
      (t == TickNumber(index) <==>
        formatted == numbers.toText(index) || (numbers.isNumeric(formatted) && !IsInteger(index)))
  {
    match kind
    case DateTimeKind => TickText(valueFormat(NumberToDate(index)))
    case TextKind => CategoryAt(vm.dateValues, index)
    case NumericKind =>
      var formatted := valueFormat(Num(index));
      if formatted == numbers.toText(index) then TickNumber(index)
      else if !numbers.isNumeric(formatted) then TickText(formatted)
      else if !IsInteger(index) then TickNumber(index)
      else TickText(formatted)
  }

  /** Lemma: on a text axis both callbacks show the same category. */
  lemma TextTicksAgree(vm: ViewModel, dateFormat: Prim -> string, valueFormat: Prim -> string, numbers: NumberText, index: real)
    ensures ColumnTick(vm, dateFormat, index, TextKind) == ValueTick(vm, valueFormat, numbers, index, TextKind)
  {
  }

  /** Lemma: a formatted text that is not numeric always wins over the raw
      number, unless it is the number's own text. */
  lemma UnitTextIsKept(vm: ViewModel, valueFormat: Prim -> string, numbers: NumberText, index: real)
    requires !numbers.isNumeric(valueFormat(Num(index))) && valueFormat(Num(index)) != numbers.toText(index)
    ensures ValueTick(vm, valueFormat, numbers, index, NumericKind) == TickText(valueFormat(Num(index)))
  {
  }

  /** Lemma: for a well-formed ordinal view model, the tick at each x domain
      position shows that row's category, so the tick labels read the
      categories in input order. */
  lemma OrdinalTicksShowCategories(vm: ViewModel, opacity: real, dateFormat: Prim -> string, k: int)
    requires WellFormed(vm, opacity) && vm.isOrdinal && 0 <= k < |vm.dateValues|
    ensures ColumnTick(vm, dateFormat, vm.dateValues[k].value, TextKind) == TickCategory(vm.dateValues[k].category)
  {
    assert vm.dateValues[k].value == k as real;
    assert (k as real).Floor == k;
  }
}

=== FILE: viewmodel.dfy ===
/** The view-model builder: turns the resolved Date and Values columns into
    the ordered point sequence the chart plots, with each point's position,
    value, normalized size, running sum, highlight, opacity and counter. */
module ViewModel {
  import opened Js
  import opened Extents
  import opened Columns

  /** A point's position on the category axis, and the raw category value
      kept as its label (`category`). */
  datatype DateValue = DateValue(category: Prim, value: real)

  /** One plotted row. `identity` stands for the selection id the host
      builds from the category column and the row index. */
  datatype LineDotPoint = LineDotPoint(
    dateValue: DateValue,
    value: real,
    dot: real,
    sum: real,
    selected: bool,
    identity: nat,
    highlight: bool,
    opacity: real,
    counter: Prim)

  /** What the per-row pass returns: the points, their positions and the
      final running sum. */
  datatype Series = Series(points: seq<LineDotPoint>, dateValues: seq<DateValue>, sum: real)

  datatype ColumnNames = ColumnNames(category: string, values: string)

  /** The per-update snapshot. `yRange` is the value extent, `sumOfValues`
      the total widened by the counter margin (both undefined without a
      numeric value). */
  datatype ViewModel = ViewModel(
    columnNames: ColumnNames,
    dotPoints: seq<LineDotPoint>,
    dateValues: seq<DateValue>,
    isOrdinal: bool,
    categoryKind: ValueKind,
    yRange: Option<Interval>,
    sumOfValues: Option<real>,
    hasHighlights: bool)

  /** The converter's outcome: no renderable data (the source returns null),
      a type error the top-level update swallows, or a view model together
      with the counter's date-time flag. */
  datatype Conversion = NoData | Failed | Built(vm: ViewModel, counterIsDateTime: bool)

  /** Share of the value range added above the data for the counter. */
  const SpaceForCounter: real := 0.10

  /** The cell at `i`, or undefined (`Null`) past the end. */
  function At(vs: seq<Prim>, i: nat): Prim {
    if i < |vs| then vs[i] else Null
  }

  /** A row's measure: `Values[i] || 0`, where a cell that is not a number
      counts as missing. */
  function Measure(values: seq<Prim>, i: nat): real {
    match At(values, i)
    case Num(n) => n
    case _ => 0.0
  }

  /** Reference definition of the running total of the first `n` measures. */
  function SumTo(values: seq<Prim>, n: nat): real {
    if n == 0 then 0.0 else SumTo(values, n - 1) + Measure(values, n - 1)
  }

  /** The numeric cells, in order: what d3's extent looks at. */
  function Numbers(vs: seq<Prim>): (r: seq<real>)
    ensures forall x :: x in r <==> Num(x) in vs
    ensures |r| <= |vs|
  {
    if |vs| == 0 then []
    else
      assert forall p :: p in vs <==> p == vs[0] || p in vs[1..];
      (if vs[0].Num? then [vs[0].n] else []) + Numbers(vs[1..])
  }

  /** The defaulted measures of the first `n` rows. */
  function RowMeasures(values: seq<Prim>, n: nat): (r: seq<real>)
    ensures |r| == n
    ensures forall k :: 0 <= k < n ==> r[k] == Measure(values, k)
  {
    seq(n, k requires 0 <= k < n => Measure(values, k))
  }

  /** The extent as written: d3's extent of the Values cells, which skips
      missing cells although the rows plot them as 0. */
  function SeriesExtent(values: seq<Prim>): (e: Option<Interval>)
    ensures e.None? <==> forall k :: 0 <= k < |values| ==> !values[k].Num?
    ensures e.Some? ==> forall k :: 0 <= k < |values| && values[k].Num? ==> e.value.lo <= values[k].n <= e.value.hi
    ensures e.Some? ==> exists k :: 0 <= k < |values| && values[k] == Num(e.value.lo)
    ensures e.Some? ==> exists k :: 0 <= k < |values| && values[k] == Num(e.value.hi)
  {
    var nums := Numbers(values);
    assert forall k :: 0 <= k < |values| && values[k].Num? ==> values[k].n in nums;
    if |nums| > 0 then
      assert Num(nums[0]) in values;
      var e := Extent(nums);
      assert Num(e.value.lo) in values && Num(e.value.hi) in values;
      e
    else Extent(nums)
  }

  /** The corrected extent: the extent of the values the rows actually plot. */
  function RowExtent(values: seq<Prim>, n: nat): (e: Option<Interval>)
    ensures e.None? <==> n == 0
    ensures e.Some? ==> forall k :: 0 <= k < n ==> e.value.lo <= Measure(values, k) <= e.value.hi
    ensures e.Some? ==> exists k :: 0 <= k < n && Measure(values, k) == e.value.lo
    ensures e.Some? ==> exists k :: 0 <= k < n && Measure(values, k) == e.value.hi
  {
    var ms := RowMeasures(values, n);
    var e := Extent(ms);
    if e.Some? then
      assert e.value.lo in ms && e.value.hi in ms;
      e
    else e
  }

  /** A value's place in the extent, 0 at the minimum and 1 at the maximum;
      a zero or undefined range gives 0. */
  function Normalize(v: real, ext: Option<Interval>): (d: real)
    ensures ext.Some? && ext.value.hi != ext.value.lo ==> d * (ext.value.hi - ext.value.lo) == v - ext.value.lo
    ensures ext.None? || ext.value.hi == ext.value.lo ==> d == 0.0
    ensures ext.Some? && ext.value.lo <= v <= ext.value.hi ==> 0.0 <= d <= 1.0
  {
    match ext
    case None => 0.0
    case Some(i) =>
      if i.hi - i.lo != 0.0 then
        UnitQuotient(v - i.lo, i.hi - i.lo);
        (v - i.lo) / (i.hi - i.lo)
      else 0.0
  }

  lemma UnitQuotient(a: real, b: real)
    requires b != 0.0
    ensures 0.0 <= a <= b ==> 0.0 <= a / b <= 1.0
  {
    if 0.0 <= a <= b {
      assert a / b * b == a;
    }
  }

  /** The position a row's category gives: its epoch time for a date-time
      column (None: `getTime` on a non-Date throws, and an invalid Date's
      NaN time is not modelled either), the raw number for a
      scalar column, the row index for an ordinal column. */
  function Position(kind: ValueKind, category: Prim, index: nat): Option<real> {
    match kind
    case DateTimeKind => if category.Date? then Some(category.ms as real) else None
    case NumericKind => if category.Num? then Some(category.n) else Some(0.0)
    case TextKind => Some(index as real)
  }

  /** The inputs of the per-row pass. */
  datatype Rows = Rows(
    dates: seq<Prim>,
    values: seq<Prim>,
    kind: ValueKind,
    highlights: Option<seq<Prim>>,
    counter: Option<seq<Prim>>,
    percentile: real)

  /** Row `k` of `rows` produced point `p` at position `dv`. */
  ghost predicate RowBuilt(rows: Rows, ext: Option<Interval>, k: nat, p: LineDotPoint, dv: DateValue)
    requires k < |rows.dates|
  {
    && p.dateValue == dv
    && dv.category == rows.dates[k]
    && Position(rows.kind, rows.dates[k], k) == Some(dv.value)
    && p.value == Measure(rows.values, k)
    && p.sum == SumTo(rows.values, k + 1)
    && p.dot == Normalize(p.value, ext)
    && !p.selected
    && p.identity == k
    && p.highlight == (rows.highlights.Some? && Truthy(At(rows.highlights.value, k)))
    && p.opacity == rows.percentile / 100.0
    && p.counter == (if rows.counter.Some? then At(rows.counter.value, k) else Null)
  }

  /** `calculateLineDotChartValues`: one point and one position per
      category row, in input order, against the value extent `ext`. */
  method CalculateLineDotChartValues(rows: Rows, ext: Option<Interval>) returns (r: Option<Series>)
    ensures r.None? <==> rows.kind == DateTimeKind && exists k :: 0 <= k < |rows.dates| && !rows.dates[k].Date?
    ensures r.Some? ==> |r.value.points| == |rows.dates| && |r.value.dateValues| == |rows.dates|
    ensures r.Some? ==> r.value.sum == SumTo(rows.values, |rows.dates|)
    ensures r.Some? ==> forall k :: 0 <= k < |rows.dates| ==> RowBuilt(rows, ext, k, r.value.points[k], r.value.dateValues[k])
  {
    var points: seq<LineDotPoint> := [];
    var dateValues: seq<DateValue> := [];
    var sum := 0.0;
    var i := 0;
    while i < |rows.dates|
      invariant 0 <= i <= |rows.dates|
      invariant |points| == i && |dateValues| == i
      invariant sum == SumTo(rows.values, i)
      invariant rows.kind == DateTimeKind ==> forall k :: 0 <= k < i ==> rows.dates[k].Date?
      invariant forall k :: 0 <= k < i ==> RowBuilt(rows, ext, k, points[k], dateValues[k])
    {
      var value := Measure(rows.values, i);
      var position := Position(rows.kind, rows.dates[i], i);
      if position.None? {
        return None;
      }
      var dateValue := DateValue(rows.dates[i], position.value);
      dateValues := dateValues + [dateValue];
      sum := sum + value;
      var point := LineDotPoint(
        dateValue,
        value,
        Normalize(value, ext),
        sum,
        false,
        i,
        rows.highlights.Some? && Truthy(At(rows.highlights.value, i)),
        rows.percentile / 100.0,
        if rows.counter.Some? then At(rows.counter.value, i) else Null);
      points := points + [point];
      i := i + 1;
    }
    return Some(Series(points, dateValues, sum));
  }

  /** `categorical.Date` as the converter reads it: usable only as a
      category column with values (a measure group's `values` is a method,
      which counts as empty, and a column list has no `source`). */
  function DateColumnOf(r: Resolved): (c: Option<Column>)
    ensures c.Some? <==> r.CategoryColumn? && |r.column.values| > 0
    ensures c.Some? ==> c.value == r.column
  {
    match r
    case CategoryColumn(col) => if |col.values| > 0 then Some(col) else None
    case _ => None
  }

  /** `categorical.Values[0]` as the converter reads it: the first measure
      column of a group or list, when it has values. */
  function FirstValuesColumnOf(r: Resolved): (c: Option<Column>)
    ensures r.CategoryColumn? || r.Unresolved? ==> c.None?
    ensures r.Grouped? ==> (c.Some? <==> |r.group.columns| > 0 && |r.group.columns[0].values| > 0)
    ensures r.Filtered? ==> (c.Some? <==> |r.columns| > 0 && |r.columns[0].values| > 0)
    ensures c.Some? ==> |c.value.values| > 0
    ensures c.Some? && r.Grouped? ==> c.value == r.group.columns[0]
    ensures c.Some? && r.Filtered? ==> c.value == r.columns[0]
  {
    var first :=
      match r
      case Grouped(g) => if |g.columns| > 0 then Some(g.columns[0]) else None
      case Filtered(cols) => if |cols| > 0 then Some(cols[0]) else None
      case _ => None;
    if first.Some? && |first.value.values| > 0 then first else None
  }

  /** `k` is the last column of `cols` carrying `role`. */
  predicate IsLastWithRole(cols: seq<Column>, role: Role, k: int) {
    0 <= k < |cols| && HasRole(cols[k], role) && forall j :: k < j < |cols| ==> !HasRole(cols[j], role)
  }

  /** The values of the last measure column with the Counter role. */
  function CounterValues(cols: seq<Column>): (r: Option<seq<Prim>>)
    ensures r.None? <==> forall k :: 0 <= k < |cols| ==> !HasRole(cols[k], CounterRole)
    ensures r.Some? ==> exists k :: IsLastWithRole(cols, CounterRole, k) && r.value == cols[k].values
  {
    if |cols| == 0 then None
    else
      var last := |cols| - 1;
      if HasRole(cols[last], CounterRole) then
        assert IsLastWithRole(cols, CounterRole, last);
        Some(cols[last].values)
      else
        LastWithRoleInPrefix(cols, CounterRole);
        CounterValues(cols[..last])
  }

  lemma LastWithRoleInPrefix(cols: seq<Column>, role: Role)
    requires |cols| > 0 && !HasRole(cols[|cols| - 1], role)
    ensures forall k :: IsLastWithRole(cols[..|cols| - 1], role, k) ==> IsLastWithRole(cols, role, k) && cols[..|cols| - 1][k] == cols[k]
    ensures forall k :: 0 <= k < |cols| - 1 ==> cols[..|cols| - 1][k] == cols[k]
  {
  }

  /** The counter's date-like test on its first cell: a Date, or a string
      the date parser accepts. A `null` first cell throws (None); without
      counter values the previous flag stays. */
  function CounterIsDateTime(counter: Option<seq<Prim>>, previous: bool, parse: string -> Option<int>): (r: Option<bool>)
    ensures counter.None? || |counter.value| == 0 ==> r == Some(previous)
    ensures counter.Some? && |counter.value| > 0 ==>
      match counter.value[0]
      case Null => r.None?
      case Date(_) => r == Some(true)
      case InvalidDate => r == Some(true)
      case Text(s) => r == Some(parse(s).Some?)
      case _ => r == Some(false)
  {
    match counter
    case None => Some(previous)
    case Some(vs) =>
      if |vs| == 0 then Some(previous)
      else
        match vs[0]
        case Null => None
        case Date(_) => Some(true)
        case InvalidDate => Some(true)
        case Text(s) => Some(parse(s).Some?)
        case _ => Some(false)
  }

  /** Whether the converter rejects the data view (returns null). */
  predicate Rejected(dv: DataView) {
    || dv.categorical.None?
    || DateColumnOf(Resolve(dv.categorical.value, DateRole)).None?
    || FirstValuesColumnOf(Resolve(dv.categorical.value, ValuesRole)).None?
  }

  /** `rows` are the per-row inputs of a data view the converter accepts:
      the coerced Date column, the Values projection, the Date column's
      value type, the first values column's highlights, the last Counter
      column's values and the percentile. */
  ghost predicate RowsOfDataView(dv: DataView, parse: string -> Option<int>, percentile: real, rows: Rows) {
    && !Rejected(dv)
    && rows.dates == CoerceAll(Resolve(dv.categorical.value, DateRole).column.values, parse)
    && Some(rows.values) == Project(dv.categorical.value, ValuesRole, parse)
    && rows.kind == Resolve(dv.categorical.value, DateRole).column.source.kind
    && rows.highlights == FirstValuesColumnOf(Resolve(dv.categorical.value, ValuesRole)).value.highlights
    && rows.counter == CounterValues(dv.categorical.value.values.columns)
    && rows.percentile == percentile
  }

    /** The inputs the converter hands to the per-row pass: the projected
      Date and Values cells, the Date column's value type, the first values
      column's highlights, the counter values and the percentile; none
      where the converter rejects the data view or a projection is missing. */
  function ConverterRows(dv: DataView, parse: string -> Option<int>, percentile: real): (r: Option<Rows>)
    ensures r.None? <==> Rejected(dv)
    ensures r.Some? ==> RowsOfDataView(dv, parse, percentile, r.value)
  {
    if Rejected(dv) then None
    else
      var cat := dv.categorical.value;
      DateProjectionIsDateColumn(cat, parse);
      ValuesProjectionExists(cat, parse);
      var date := Project(cat, DateRole, parse);
      var values := Project(cat, ValuesRole, parse);
      if date.None? || values.None? then None
      else Some(Rows(date.value, values.value, Resolve(cat, DateRole).column.source.kind,
        FirstValuesColumnOf(Resolve(cat, ValuesRole)).value.highlights, CounterValues(cat.values.columns), percentile))
  }

  /** A usable values column implies the Values projection exists: the
      group or a measure column carries the role. */
  lemma ValuesProjectionExists(c: Categorical, parse: string -> Option<int>)
    requires FirstValuesColumnOf(Resolve(c, ValuesRole)).Some?
    ensures Project(c, ValuesRole, parse).Some?
  {
    var r := Resolve(c, ValuesRole);
    if r.Filtered? {
      var x := r.columns[0];
      assert x in c.values.columns && HasRole(x, ValuesRole);
      var k :| 0 <= k < |c.values.columns| && c.values.columns[k] == x;
      assert (c.categories + c.values.columns)[|c.categories| + k] == x;
    }
  }

    /** The per-row pass throws: the category axis is date-time and some
      category is not a Date. */
  predicate DateTimeMismatch(rows: Rows) {
    rows.kind == DateTimeKind && exists k :: 0 <= k < |rows.dates| && !rows.dates[k].Date?
  }

  /** `vm` is what the per-row pass over the corrected extent and the
      counter margin make of `rows`: one point per row as `RowBuilt` says,
      the value range, and the widened total. */
  ghost predicate BuiltFrom(rows: Rows, vm: ViewModel) {
    && |vm.dotPoints| == |rows.dates| && |vm.dateValues| == |rows.dates|
    && vm.yRange == RowExtent(rows.values, |rows.dates|)
    && (forall k :: 0 <= k < |rows.dates| ==> RowBuilt(rows, vm.yRange, k, vm.dotPoints[k], vm.dateValues[k]))
    && vm.yRange.Some? && vm.sumOfValues.Some?
    && vm.sumOfValues.value - SumTo(rows.values, |rows.dates|)
       == (SumTo(rows.values, |rows.dates|) - vm.yRange.value.lo) * SpaceForCounter
  }

  /** The converter throws on a data view it does not reject: the counter
      test meets a `null` first cell, or the per-row pass meets a category
      that is not a Date on a date-time axis. */
  predicate ConversionThrows(dv: DataView, parse: string -> Option<int>, percentile: real, counterWasDateTime: bool) {
    && !Rejected(dv)
    && (|| CounterIsDateTime(CounterValues(dv.categorical.value.values.columns), counterWasDateTime, parse).None?
        || DateTimeMismatch(ConverterRows(dv, parse, percentile).value))
  }

    /** What a built conversion of `dv` holds: the per-row inputs exist and
      `vm` is built from them (`BuiltFrom`), is well formed, takes its
      categories, value type and name from the Date column and its
      highlights and name from the first values column, and `flag` is the
      counter test's answer. */
  ghost predicate ConvertedFrom(dv: DataView, parse: string -> Option<int>, percentile: real, counterWasDateTime: bool,
                                vm: ViewModel, flag: bool) {
    && !Rejected(dv)
    && ConverterRows(dv, parse, percentile).Some?
    && BuiltFrom(ConverterRows(dv, parse, percentile).value, vm)
    && WellFormed(vm, percentile / 100.0)
    && var date := Resolve(dv.categorical.value, DateRole).column;
    && var valuesColumn := FirstValuesColumnOf(Resolve(dv.categorical.value, ValuesRole)).value;
    && |vm.dateValues| == |date.values|
    && (forall k :: 0 <= k < |date.values| ==> vm.dateValues[k].category == Coerce(date.values[k], parse))
    && vm.isOrdinal == (date.source.kind == TextKind) && vm.categoryKind == date.source.kind
    && vm.columnNames == ColumnNames(date.source.displayName, valuesColumn.source.displayName)
    && vm.hasHighlights == valuesColumn.highlights.Some?
    && (!vm.hasHighlights ==> forall k :: 0 <= k < |vm.dotPoints| ==> !vm.dotPoints[k].highlight)
    && CounterIsDateTime(CounterValues(dv.categorical.value.values.columns), counterWasDateTime, parse) == Some(flag)
  }

    /** The invariants of a built view model: one position per point, each
      point's identity its row, its value inside the value range and its
      dot in [0, 1], and a uniform baseline opacity. */
  ghost predicate WellFormed(vm: ViewModel, opacity: real) {
    && |vm.dotPoints| == |vm.dateValues| > 0
    && vm.yRange.Some?
    && (forall k :: 0 <= k < |vm.dotPoints| ==> vm.dotPoints[k].dateValue == vm.dateValues[k])
    && (forall k :: 0 <= k < |vm.dotPoints| ==> vm.dotPoints[k].identity == k && !vm.dotPoints[k].selected)
    && (forall k :: 0 <= k < |vm.dotPoints| ==>
          vm.yRange.value.lo <= vm.dotPoints[k].value <= vm.yRange.value.hi)
    && (forall k :: 0 <= k < |vm.dotPoints| ==> 0.0 <= vm.dotPoints[k].dot <= 1.0)
    && (forall k :: 0 <= k < |vm.dotPoints| ==> vm.dotPoints[k].opacity == opacity)
    && (vm.isOrdinal ==> forall k :: 0 <= k < |vm.dateValues| ==> vm.dateValues[k].value == k as real)
  }

  /** `converter`: rejects a data view without a usable Date or Values
      column, fails where the source throws, and otherwise builds the view
      model from the projected columns. */
  method Convert(dv: DataView, parse: string -> Option<int>, percentile: real, counterWasDateTime: bool)
    returns (c: Conversion)
    ensures c.NoData? <==> Rejected(dv)
    ensures c.Failed? <==> ConversionThrows(dv, parse, percentile, counterWasDateTime)
    ensures c.Built? ==> ConvertedFrom(dv, parse, percentile, counterWasDateTime, c.vm, c.counterIsDateTime)
  {
    var columns := GetCategoricalColumns(dv);
    if columns.None? || DateColumnOf(columns.value.date).None? || FirstValuesColumnOf(columns.value.values).None? {
      return NoData;
    }
    var cat := dv.categorical.value;
    var dateColumn := DateColumnOf(columns.value.date).value;
    var valuesColumn := FirstValuesColumnOf(columns.value.values).value;
    var counterIsDateTime := CounterIsDateTime(CounterValues(cat.values.columns), counterWasDateTime, parse);
    if counterIsDateTime.None? {
      return Failed;
    }
    var rows := ConverterRows(dv, parse, percentile).value;
    var names := ColumnNames(dateColumn.source.displayName, valuesColumn.source.displayName);
    var vm := Assemble(rows, names);
    if vm.None? {
      return Failed;
    }
    return Built(vm.value, counterIsDateTime.value);
  }

  /** The converter's last step: the per-row pass over the corrected
      extent, the total widened by the counter margin, and the view model
      record. Fails where a date-time category is not a Date. */
  method Assemble(rows: Rows, names: ColumnNames) returns (r: Option<ViewModel>)
    requires |rows.dates| > 0
    ensures r.None? <==> DateTimeMismatch(rows)
    ensures r.Some? ==> WellFormed(r.value, rows.percentile / 100.0)
    ensures r.Some? ==> (|r.value.dateValues| == |rows.dates|
      && forall k :: 0 <= k < |rows.dates| ==> r.value.dateValues[k].category == rows.dates[k])
    ensures r.Some? ==> r.value.isOrdinal == (rows.kind == TextKind) && r.value.categoryKind == rows.kind
    ensures r.Some? ==> r.value.columnNames == names
    ensures r.Some? ==> r.value.hasHighlights == rows.highlights.Some?
    ensures r.Some? && rows.highlights.None? ==> forall k :: 0 <= k < |r.value.dotPoints| ==> !r.value.dotPoints[k].highlight
    ensures r.Some? ==> BuiltFrom(rows, r.value)
  {
    var ext := RowExtent(rows.values, |rows.dates|);
    var series := CalculateLineDotChartValues(rows, ext);
    if series.None? {
      return None;
    }
    var s := series.value;
    var spaced := Some(s.sum + (s.sum - ext.value.lo) * SpaceForCounter);
    var vm := ViewModel(names, s.points, s.dateValues, rows.kind == TextKind, rows.kind, ext, spaced, rows.highlights.Some?);
    BuiltSeriesIsWellFormed(rows, s, vm);
    return Some(vm);
  }

  /** A view model assembled from a complete per-row pass over the
      corrected extent is well formed, and carries the rows' categories and
      highlights. */
  lemma BuiltSeriesIsWellFormed(rows: Rows, s: Series, vm: ViewModel)
    requires |rows.dates| > 0
    requires |s.points| == |rows.dates| && |s.dateValues| == |rows.dates|
    requires forall k :: 0 <= k < |rows.dates| ==>
      RowBuilt(rows, RowExtent(rows.values, |rows.dates|), k, s.points[k], s.dateValues[k])
    requires vm.dotPoints == s.points && vm.dateValues == s.dateValues
    requires vm.isOrdinal == (rows.kind == TextKind) && vm.yRange == RowExtent(rows.values, |rows.dates|)
    ensures WellFormed(vm, rows.percentile / 100.0)
    ensures forall k :: 0 <= k < |rows.dates| ==> vm.dateValues[k].category == rows.dates[k]
    ensures rows.highlights.None? ==> forall k :: 0 <= k < |vm.dotPoints| ==> !vm.dotPoints[k].highlight
  {
  }

  /** Lemma: the converter returns no data when no category column carries
      the Date role, when nothing carries the Values role, or when the Values
      role sits on a category column. */
  lemma RejectionCases(dv: DataView)
    requires dv.categorical.Some?
    ensures var cat := dv.categorical.value;
      (forall k :: 0 <= k < |cat.categories| ==> !HasRole(cat.categories[k], DateRole)) ==> Rejected(dv)
    ensures var cat := dv.categorical.value;
      ((forall k :: 0 <= k < |cat.values.columns| ==> !HasRole(cat.values.columns[k], ValuesRole))
       && !GroupHasRole(cat.values, ValuesRole)) ==> Rejected(dv)
    ensures var cat := dv.categorical.value;
      (exists k :: 0 <= k < |cat.categories| && HasRole(cat.categories[k], ValuesRole)) ==> Rejected(dv)
  {
  }

  /** A tooltip line: a column name and a formatted value. */
  datatype TooltipItem = TooltipItem(displayName: string, value: string)

  /** `getTooltipDataItems`: nothing without a point, otherwise the
      formatted category (its label, or its position when the label is
      falsy) and the formatted value, under the two column names. */
  function TooltipDataItems(names: ColumnNames, point: Option<LineDotPoint>, dateFormat: Prim -> string, valueFormat: Prim -> string)
    : (items: seq<TooltipItem>)
    ensures point.None? <==> items == []
    ensures point.Some? ==> (|items| == 2
      && items[0].displayName == names.category && items[1].displayName == names.values
      && items[1].value == valueFormat(Num(point.value.value)))
    ensures point.Some? && Truthy(point.value.dateValue.category) ==> items[0].value == dateFormat(point.value.dateValue.category)
    ensures point.Some? && !Truthy(point.value.dateValue.category) ==> items[0].value == dateFormat(Num(point.value.dateValue.value))
  {
    match point
    case None => []
    case Some(p) =>
      var unformatted := if Truthy(p.dateValue.category) then p.dateValue.category else Num(p.dateValue.value);
      [TooltipItem(names.category, dateFormat(unformatted)), TooltipItem(names.values, valueFormat(Num(p.value)))]
  }

  /** Lemma: the tooltip of the point built for row `k` shows that row's
      defaulted value, and its category when the category is truthy; an
      empty text category on an ordinal axis shows the row index instead. */
  lemma TooltipShowsRow(rows: Rows, ext: Option<Interval>, k: nat, p: LineDotPoint, dv: DateValue,
                        names: ColumnNames, dateFormat: Prim -> string, valueFormat: Prim -> string)
    requires k < |rows.dates| && RowBuilt(rows, ext, k, p, dv)
    ensures var items := TooltipDataItems(names, Some(p), dateFormat, valueFormat);
      && items[1].value == valueFormat(Num(Measure(rows.values, k)))
      && (Truthy(rows.dates[k]) ==> items[0].value == dateFormat(rows.dates[k]))
      && (rows.kind == TextKind && !Truthy(rows.dates[k]) ==> items[0].value == dateFormat(Num(k as real)))
  {
  }

  /** Lemma: point `k`'s running sum is the sum of the defaulted values of
      rows 0..k, and the last point's sum is the series total. */
  lemma RunningSumIsPrefixTotal(rows: Rows, ext: Option<Interval>, s: Series)
    requires |s.points| == |rows.dates| == |s.dateValues| > 0
    requires s.sum == SumTo(rows.values, |rows.dates|)
    requires forall k :: 0 <= k < |rows.dates| ==> RowBuilt(rows, ext, k, s.points[k], s.dateValues[k])
    ensures s.points[|s.points| - 1].sum == s.sum
    ensures s.points[0].sum == Measure(rows.values, 0)
    ensures forall k :: 0 < k < |s.points| ==> s.points[k].sum == s.points[k - 1].sum + s.points[k].value
  {
    assert RowBuilt(rows, ext, |s.points| - 1, s.points[|s.points| - 1], s.dateValues[|s.points| - 1]);
    assert RowBuilt(rows, ext, 0, s.points[0], s.dateValues[0]);
    assert SumTo(rows.values, 1) == SumTo(rows.values, 0) + Measure(rows.values, 0);
    forall k | 0 < k < |s.points|
      ensures s.points[k].sum == s.points[k - 1].sum + s.points[k].value
    {
      assert RowBuilt(rows, ext, k, s.points[k], s.dateValues[k]);
      assert RowBuilt(rows, ext, k - 1, s.points[k - 1], s.dateValues[k - 1]);
    }
  }

  /** Lemma: with all values present the corrected extent is the extent the
      source computes, so the correction changes nothing on complete data. */
  lemma RowExtentAgreesOnCompleteData(values: seq<Prim>)
    requires forall k :: 0 <= k < |values| ==> values[k].Num?
    ensures RowExtent(values, |values|) == SeriesExtent(values)
  {
    NumbersOfComplete(values);
  }

  lemma {:induction false} NumbersOfComplete(values: seq<Prim>)
    requires forall k :: 0 <= k < |values| ==> values[k].Num?
    ensures Numbers(values) == RowMeasures(values, |values|)
  {
    if |values| > 0 {
      NumbersOfComplete(values[1..]);
      var rest := RowMeasures(values[1..], |values| - 1);
      assert forall k :: 0 <= k < |rest| ==> rest[k] == Measure(values, k + 1);
    }
  }

  /** Lemma (as written): for the values 5, missing, 7 the missing row is
      plotted as 0 but the source's extent is [5, 7], so its dot is -2.5;
      under the corrected extent [0, 7] the same row gets dot 0. */
  lemma MissingValueLeavesUnitRange()
    ensures var values := [Num(5.0), Null, Num(7.0)];
      && SeriesExtent(values) == Some(Interval(5.0, 7.0))
      && Normalize(Measure(values, 1), SeriesExtent(values)) == -2.5
      && RowExtent(values, 3) == Some(Interval(0.0, 7.0))
      && Normalize(Measure(values, 1), RowExtent(values, 3)) == 0.0
  {
    var values := [Num(5.0), Null, Num(7.0)];
    assert values[1..] == [Null, Num(7.0)];
    assert values[1..][1..] == [Num(7.0)];
    assert Numbers(values) == [5.0, 7.0];
    assert [5.0, 7.0][..1] == [5.0];
    assert RowMeasures(values, 3) == [5.0, 0.0, 7.0];
    assert [5.0, 0.0, 7.0][..2] == [5.0, 0.0];
    assert [5.0, 0.0][..1] == [5.0];
  }
}
